=== FILE: README.md ===
# gh-cascade, modelled in Dafny

gh-cascade is a `gh` extension. It rebases each of the user's open pull requests onto the
repository's default branch once the pull request it depends on has been merged. A pull
request declares its dependency in its body with an annotation such as `Depends on: #123`.
`main` runs these steps in order:

1. It refuses to run on a dirty working tree.
2. It resolves the default branch, fetches `origin/<default>` and lists the user's open pull
   requests.
3. For every pull request, it extracts the declared dependencies with the pattern
   `(?i)depend(?:s|ed|ing)?\s+on:\s+#(\d+)`.
4. It classifies each pull request in one of these ways:
   - no dependency;
   - several dependencies;
   - the lookup failed;
   - the dependency is not merged;
   - the checkout failed;
   - the rebase failed;
   - rebased.
   When there is exactly one merged dependency, it runs `gh pr checkout` and then
   `git rebase --onto origin/<default> <merge commit> <head branch>`. After a failed rebase it
   runs `git rebase --abort`.
5. Finally it prints two lists: the rebased pull requests and the pull requests that were not
   rebased.

The model is pure and functional:

- **Commands as replies.** Every external command is replaced by the reply it could give
  (`External`).
- **Event trace.** Every run records a trace of the commands it attempted, as `Event` values.
  A `gh` call made through go-gh leaves an event even when `gh` cannot be found, because its
  reply does not tell a missing `gh` from a failed one. A command that `main.go` starts
  itself after `safeexec.LookPath` leaves no event when the tool is missing. The ghost
  predicate `External.Protocol` states the ordering guarantees of the destructive
  commands:
  - a checkout happens only right after looking up a merged dependency;
  - a rebase happens only right after a successful checkout, and replays from that
    dependency's merge commit;
  - every failed rebase, and only a failed rebase, is followed by `git rebase --abort`.
- **Panics.** The two panics the model keeps are explicit `Panic` values, not preconditions
  (the panic on a dependency number too large for `strconv.Atoi` is under "## Left out"):
  - a lookup that returns neither a pull request nor an error, dereferenced at `main.go:158`;
  - a conflict reported for a merge commit oid shorter than seven characters, sliced at
    `main.go:376`.

The modules follow the program's structure:

- `PullRequests`: the `PullRequest` and `ProcessedPullRequest` records, and the errors.
- `External`: the replies of `git` and `gh`, the events and the protocol.
- `DependOn`: the pattern, as a scanner proved equal to a declarative description of the
  matched text. Successive non-overlapping matches are taken as `FindAllStringSubmatch` takes
  them.
- `Rebase`: `CheckoutToPullRequest` and `RebaseOntoPullRequest`.
- `Pipeline`: the classification of one pull request, and the loop over all of them.
- `Cascade`: the dirty-tree guard and the preparatory steps of `main`.
- `Report`: `getColor` and the two printed lists, coloured as `main.go` colours them. The
  corrected colour of the dependency line is modelled beside them (see "## Findings").
- `Scenarios`: worked examples.

**The annotation needs a colon.** The pattern in `main.go:111` requires a colon after `on`.
Annotations written without one, such as `Depends on #123`, therefore declare nothing. The
model follows the code here, and `DependOn.ColonRequired` and `Scenarios.ScenarioNoColon`
state it.

## Model

| member | source | states |
|---|---|---|
| DependOn.KeywordEnd | main.go:111 | the keyword prefix that is found, folded to lower case, is one of `depend`, `depends`, `depended`, `depending` |
| DependOn.SkipSpaces | main.go:111 | the `\s+` run ends at the first character that is not RE2 white space, and everything before it is white space |
| DependOn.DecimalRoundTrip | main.go:117 | `strconv.Atoi` of the decimal rendering of a natural number gives that number back |
| DependOn.MatchPrefixIsPattern | main.go:111 | the scanner finds a match of length `e` capturing `v` exactly when the text starts with keyword, white space, `on:`, white space, `#` and a maximal digit run of value `v` ending at `e` |
| DependOn.MatchPrefixSound | main.go:111 | every match the scanner reports has the shape the pattern describes |
| DependOn.MatchPrefixComplete | main.go:111 | every text with the pattern's shape is matched, and the whole digit run is captured |
| DependOn.DependOnsEmptyIffNoMatch | main.go:115-123 | no dependency is extracted exactly when the pattern matches at no position of the body |
| DependOn.MatchYieldsDependOn | main.go:115-123 | a match anywhere in the body yields at least one dependency |
| DependOn.LeftmostMatchFirst | main.go:115-123 | the first dependency is the value captured by the leftmost match, and the search resumes after that match |
| DependOn.DependOnsIgnoreCase | main.go:111 | `(?i)`: bodies that are equal up to ASCII case declare the same dependencies |
| DependOn.DependOnsOfLowerCase | main.go:111 | lower-casing a body does not change its dependencies |
| DependOn.ColonRequired | main.go:111 | a body without any colon declares no dependency |
| DependOn.AnnotationMatches | main.go:111 | `<keyword> on: #<n>`, not followed by a digit, is matched in full and captures `n` |
| DependOn.RenderRoundTrip | main.go:111-123 | a body listing the annotations for `ns`, one per line, yields exactly `ns`, in order |
| External.ProtocolConcat | main.go:112-191 | traces that keep the command ordering still keep it when run one after the other |
| Rebase.CheckoutToPullRequest | main.go:344-360 | checkout succeeds exactly when `gh pr checkout` succeeds; a missing `gh` runs nothing and returns the lookup error unchanged; a failed run reports its stderr and exit error |
| Rebase.RebaseOntoPullRequest | main.go:362-383 | success exactly when `git rebase --onto` succeeds; a missing `git` runs nothing and returns the lookup error unchanged; a failed run is followed by `git rebase --abort`; stderr containing `could not apply` gives a conflict with the first 7 characters of the old parent, or a panic when it is shorter; any other failure reports stderr and the exit error |
| Rebase.AbortResultIgnored | main.go:373 | the outcome of a rebase does not depend on whether `git rebase --abort` succeeded |
| Pipeline.IterationProtocol | main.go:147-190 | lookup, then checkout only after a merged lookup, then rebase only after a successful checkout, keeps the command ordering |
| Pipeline.LookingUp | main.go:147-190 | the lookup runs first; a lookup error gives `LookupFailed` with that error, an unmerged dependency gives `NotMerged`, and then nothing else runs; a nil lookup panics; after a merged lookup the checkout's or the rebase's own error is recorded; the dependency is recorded only on full success, and it is the merged one |
| Pipeline.CheckingOut | main.go:167-190 | a failed checkout gives `CheckoutFailed` carrying the error `CheckoutToPullRequest` returns, and nothing is rebased; checkout names the pull request's own number |
| Pipeline.Rebasing | main.go:176-190 | the rebase goes onto `origin/<default>` from the dependency's merge commit for the pull request's head branch; a successful rebase records the dependency; a failed one gives `RebaseFailed` carrying the error `RebaseOntoPullRequest` returns (a conflict with the short oid, or the stderr wrap); its panic is the iteration's panic |
| Pipeline.ProcessOne | main.go:112-191 | the outcome keeps the pull request and its extracted dependencies; no dependency or several run nothing and give `ErrNoDependOn` or the multiple-dependencies error; one dependency is looked up first; the error is empty exactly when lookup, merge state, checkout and rebase all succeed; the commands keep the ordering |
| Pipeline.ProcessOneFailureKinds | main.go:147-190 | with one declared dependency, the recorded failure is the one of the first failing step (`LookupFailed`, `NotMerged`, `CheckoutFailed`, `RebaseFailed`), each carrying that step's error, and a nil lookup or a short oid in a conflict panics |
| Pipeline.Commands | main.go:112-191 | every command in the concatenated trace comes from one of the iterations |
| Pipeline.CommandsProtocol | main.go:112-191 | the concatenated trace of iterations that each keep the command ordering keeps it too |
| Pipeline.RunSteps | main.go:112-191 | iterations are kept in order until the first panic, which ends the loop; the trace holds the commands of the iterations that ran |
| Pipeline.ProcessAll | main.go:109-191 | without a panic every pull request gets its outcome, in list order; a panic is raised by the first pull request that has no outcome; all rebases go onto `origin/<default>`; the trace is exactly the commands of the pull requests processed so far, one pull request after another in list order; the commands keep the ordering |
| Cascade.IsCurrentBranchDirty | main.go:327-342 | an error exactly when `git` is missing or `git status --porcelain` fails; otherwise dirty exactly when the output is non-empty |
| Cascade.SetupProtocol | main.go:60-102 | a trace of only preparatory commands keeps the command ordering |
| Cascade.StatusEvents | main.go:334-337 | a missing `git` leaves no event; otherwise one `git status`, recording whether it succeeded |
| Cascade.FetchEvents | main.go:276-288 | a missing `git` leaves no event; otherwise one `git fetch origin <branch>` for the default branch, recording whether it succeeded |
| Cascade.Processing | main.go:104-191 | every listed pull request gets the outcome its own processing gives, unless one panics; the trace is the preparatory commands followed by the loop's commands; a crash carries the loop's panic |
| Cascade.Listing | main.go:88-102 | a listing error, or an empty list, stops the run after `gh pr list` |
| Cascade.Fetching | main.go:83-102 | a failed fetch stops the run and names the default branch |
| Cascade.Preparing | main.go:77-102 | a default-branch error stops the run after `gh repo view`; a stopped run has issued only preparatory commands |
| Cascade.Run | main.go:60-191 | an unknown status or a dirty tree stops the run after `git status` alone; a failed preparatory step stops it before any checkout or rebase; otherwise it finishes or crashes according to the processing loop; the commands keep the ordering |
| Cascade.ListingProcesses | main.go:88-104 | a non-empty list goes on to the processing loop after a successful `gh pr list` |
| Cascade.FetchingLists | main.go:83-88 | a successful fetch goes on to listing after `git fetch origin <default>` |
| Cascade.RunPrepares | main.go:60-83 | a clean tree with a resolved default branch goes on to fetching it |
| Cascade.RunAfterPreparation | main.go:60-191 | once every preparatory step succeeded, the trace is `git status`, `gh repo view`, `git fetch`, `gh pr list` followed by the processing loop's commands, and a crash carries the loop's panic |
| Cascade.FinishedOutcomesAligned | main.go:112-191 | a finished run has one well-formed outcome per listed pull request, at the same position |
| Report.GetColor | main.go:392-407 | green exactly for a non-draft open pull request; magenta exactly for a merged one; red exactly for a closed one; hi-black for an open draft and for any other state |
| Report.NotRebasedColor | main.go:216-222 | hi-black exactly for drafts, otherwise green |
| Report.NotRebasedColorAgreesForOpen | main.go:216-222 | for open pull requests the colour of the not-rebased list is the one `getColor` gives |
| Report.ToneOf | main.go:226-230 | an error is shown as a hint exactly when it is `ErrNoDependOn` |
| Report.ListsMembership | main.go:196-231 | the rebased list holds exactly the outcomes without error, and the other list exactly those with one |
| Report.ListsKeepOrder | main.go:196-231 | both lists keep the processing order |
| Report.ListsPartition | main.go:196-231 | together the two lists hold every outcome exactly as often as the processing result does |
| Report.ListsCount | main.go:196-231 | the two lists' lengths add up to the number of outcomes |
| Report.RebasedOfConcat | main.go:197-200 | the rebased list of two concatenated result lists is the concatenation of their rebased lists |
| Report.NotRebasedOfConcat | main.go:211-214 | the same for the not-rebased list |
| Report.Summarize | main.go:196-231 | the report holds one entry per outcome, in order; rebased entries name the pull request and its dependency, the number coloured by `getColor` and the dependency's number in that same colour; other entries carry the error, shown as a hint exactly for `ErrNoDependOn`, the number hi-black for drafts and green otherwise |
| Report.RebasedIffAllStepsSucceed | main.go:196-214 | a processed pull request lands in the rebased list exactly when every step succeeded, and otherwise in the other list |
| Report.HintIffNoDependency | main.go:226-230 | a not-rebased pull request is shown as a hint exactly when its body declares no dependency |
| Report.DependedColorIgnoresDependency | main.go:206-207 | as written, the colour of the dependency line does not depend on the dependency at all |
| Report.DependedColor | main.go:206-207 | corrected: the dependency line takes the dependency's colour, magenta when it is merged |
| Report.RebasedDependencyIsMagenta | main.go:206-207 | with the corrected colour, the dependency of every rebased pull request would be shown in magenta |
| Report.DependedColorAsWrittenMislabels | main.go:206-207 | an open pull request rebased onto a merged dependency shows that dependency in green as written, magenta as corrected |
| Scenarios.ScenarioRebased | main.go:147-190 | a merged dependency: view, checkout, then rebase onto `origin/main` from the merge commit, reported as rebased |
| Scenarios.ScenarioNoColon | main.go:111 | `Depends on #123` declares nothing, and nothing is run |
| Scenarios.ScenarioTwoDependencies | main.go:138-145 | two annotations: nothing is run, and both numbers are reported |
| Scenarios.ScenarioNotMerged | main.go:158-165 | an open dependency is looked up and reported as not merged, and nothing else runs |
| Scenarios.ScenarioConflict | main.go:372-376 | a conflict is reported with `abc1234`, the first seven characters of the merge commit |
| Scenarios.ScenarioConflictAborted | main.go:373 | the conflicting rebase is followed by `git rebase --abort` |
| Scenarios.ScenarioConflictWithoutMergeCommit | main.go:376 | a conflict with an empty merge commit oid panics |
| Scenarios.ScenarioDirty | main.go:66-69 | a dirty working tree stops the run after `git status` |

## Left out

- Process execution, `safeexec.LookPath` and JSON decoding are not modelled. Each wrapper
  (`GetDefaultBranch`, `FetchOriginBranch`, `ListPullRequests`, `GetPullRequest`,
  `IsCurrentBranchDirty`, `CheckoutToPullRequest`, `RebaseOntoPullRequest`) is reduced to the
  replies it can give its caller. The wrappers' `stderr.Len() > 0` branch returns the nil
  error, and the model keeps that effect: an empty branch name, an empty list, or a nil pull
  request.
- Nothing printed is modelled: the spinner, terminal colours as escape codes, the text and
  layout of the printed lines, and the wording of error messages. The report keeps the colour
  and the values each line shows.
- The interrupt context (`signal.NotifyContext`) is not modelled. Cancellation would appear as
  a failed command, which the replies already cover.
- `RepositoryFlag` is not modelled: it is declared but never registered or read in `main.go`.
- The `if err != nil` check at main.go:125-127 cannot fire, because `err` is always nil there.
  The model has no branch for it.
- DependOn.DependOns: the model captures unbounded naturals. `strconv.Atoi` fails on a digit
  run beyond the 64-bit range, and the program then panics at main.go:119. The model does not
  include that panic.
- DependOn.Fold: case folding is ASCII only. RE2's `(?i)` also lets the long s (U+017F) stand
  for `s` in `depends`.
- Strings are sequences of characters, whereas Go indexes bytes. `oldParent[:7]` is taken as
  seven characters, which is the same thing for the hexadecimal commit oids `gh` reports.

## Findings

| source | as written | input that shows it | evidently intended | confidence | as-written member | corrected member |
|---|---|---|---|---|---|---|
| main.go:206-207 | the colour of the dependency line is `getColor(pr.PullRequest)`, the colour of the dependent pull request | an open, non-draft pull request rebased onto merged #123: #123 is printed in green | `getColor(*pr.DependedPullRequest)`, so that the merged dependency is printed in magenta | not executed | Report.DependedColorAsWritten (used by Report.Summarize; shown by Report.DependedColorAsWrittenMislabels and Report.DependedColorIgnoresDependency) | Report.DependedColor (proved by Report.RebasedDependencyIsMagenta) |

=== FILE: depend_on.dfy ===
/**
  The dependency-annotation extractor of main.go: the pattern
  `(?i)depend(?:s|ed|ing)?\s+on:\s+#(\d+)` applied with FindAllStringSubmatch
  to a pull request body, each captured digit run converted to an integer.

  The pattern is modelled by a hand-written scanner (`MatchPrefix`) that is
  proved equivalent to a declarative description of the matched text
  (`IsMatch`); `DependOns` applies it at successive positions the way the Go
  regexp package finds successive non-overlapping leftmost matches.
*/
module DependOn {
  import opened Wrappers

  /** The four spellings the optional group admits, in lower case. */
  const Keywords: set<string> := {"depend", "depends", "depended", "depending"}

  /** RE2's `\s`: tab, line feed, form feed, carriage return and space. */
  predicate IsSpace(c: char) {
    c == '\t' || c == '\n' || c == '\U{C}' || c == '\r' || c == ' '
  }

  /** RE2's `\d`: ASCII digits only. */
  predicate IsDigit(c: char) {
    '0' <= c <= '9'
  }

  /** ASCII case folding. RE2 also folds the long s (U+017F) to `s`; that one character is not modelled. */
  function Fold(c: char): char {
    if 'A' <= c <= 'Z' then (c as int + 32) as char else c
  }

  function FoldSeq(s: string): (r: string)
    ensures |r| == |s|
  {
    seq(|s|, j requires 0 <= j < |s| => Fold(s[j]))
  }

  /** `t[i..]` begins with `w` when compared case-insensitively. */
  predicate StartsFolded(t: string, i: nat, w: string) {
    i + |w| <= |t| && forall x :: i <= x < i + |w| ==> Fold(t[x]) == w[x - i]
  }

  predicate AllDigits(ds: string) {
    forall j :: 0 <= j < |ds| ==> IsDigit(ds[j])
  }

  function DigitValue(c: char): (d: nat)
    requires IsDigit(c)
    ensures d < 10
  {
    c as int - '0' as int
  }

  function DigitChar(d: nat): (c: char)
    requires d < 10
    ensures IsDigit(c) && DigitValue(c) == d
  {
    ('0' as int + d) as char
  }

  /** The value `strconv.Atoi` gives a run of decimal digits (unbounded here). */
  function DecimalValue(ds: string): nat
    requires AllDigits(ds)
  {
    if |ds| == 0 then 0
    else DecimalValue(ds[..|ds| - 1]) * 10 + DigitValue(ds[|ds| - 1])
  }

  /** The decimal numeral of `n`, without leading zeros. */
  function DecimalString(n: nat): (ds: string)
    ensures 0 < |ds| && AllDigits(ds)
  {
    if n < 10 then [DigitChar(n)] else DecimalString(n / 10) + [DigitChar(n % 10)]
  }

  lemma {:induction false} DecimalRoundTrip(n: nat)
    ensures DecimalValue(DecimalString(n)) == n
  {
    if n >= 10 {
      var ds := DecimalString(n);
      assert ds[..|ds| - 1] == DecimalString(n / 10);
      DecimalRoundTrip(n / 10);
    }
  }

  /** End of the maximal run of whitespace starting at `i`. */
  function SkipSpaces(t: string, i: nat): (r: nat)
    requires i <= |t|
    ensures i <= r <= |t|
    ensures forall j :: i <= j < r ==> IsSpace(t[j])
    ensures r == |t| || !IsSpace(t[r])
    decreases |t| - i
  {
    if i < |t| && IsSpace(t[i]) then SkipSpaces(t, i + 1) else i
  }

  /** End of the maximal run of digits starting at `i` (the greedy `\d+`). */
  function SkipDigits(t: string, i: nat): (r: nat)
    requires i <= |t|
    ensures i <= r <= |t|
    ensures forall j :: i <= j < r ==> IsDigit(t[j])
    ensures r == |t| || !IsDigit(t[r])
    decreases |t| - i
  {
    if i < |t| && IsDigit(t[i]) then SkipDigits(t, i + 1) else i
  }

  /**
    Length of the `depend(?:s|ed|ing)?` prefix of `t`. The optional group is
    greedy, and the text after it must be whitespace, so at most one
    alternative can lead to a match: the one the next letter selects.
  */
  function KeywordEnd(t: string): (k: Option<nat>)
    ensures k.Some? ==> k.value <= |t| && FoldSeq(t[..k.value]) in Keywords
  {
    if !StartsFolded(t, 0, "depend") then None
    else
      var k: nat :=
        if StartsFolded(t, 6, "s") then 7
        else if StartsFolded(t, 6, "ed") then 8
        else if StartsFolded(t, 6, "ing") then 9
        else 6;
      assert FoldSeq(t[..k]) in Keywords by {
        assert t[..k] == t[0..k];
        var suffix := if k == 7 then "s" else if k == 8 then "ed" else if k == 9 then "ing" else "";
        StartsFoldedConcat(t, 0, "depend", suffix);
        FoldPrefixIs(t, 0, k, "depend" + suffix);
        if k == 6 {
          assert "depend" + suffix == "depend";
        } else if k == 7 {
          assert "depend" + suffix == "depends";
        } else if k == 8 {
          assert "depend" + suffix == "depended";
        } else {
          assert "depend" + suffix == "depending";
        }
      }
      Some(k)
  }

  /** One match of the pattern at the start of the text: the captured value and the match length. */
  datatype Hit = Hit(value: nat, length: nat)

  /** The scanner: the match of the pattern that starts at `t[0]`, if any. */
  function MatchPrefix(t: string): (m: Option<Hit>)
    ensures m.Some? ==> 0 < m.value.length <= |t|
  {
    match KeywordEnd(t)
    case None => None
    case Some(k) => MatchOnClause(t, k)
  }

  /** The rest of the pattern, `\s+on:\s+#(\d+)`, from position `k`. */
  function MatchOnClause(t: string, k: nat): (m: Option<Hit>)
    requires k <= |t|
    ensures m.Some? ==> k < m.value.length <= |t|
  {
    var a := SkipSpaces(t, k);
    if a == k || !OnAt(t, a) then None
    else HashClause(t, a + 3)
  }

  /** `on:` at position `a`, the letters in either case. */
  predicate OnAt(t: string, a: nat) {
    a + 3 <= |t| && Fold(t[a]) == 'o' && Fold(t[a + 1]) == 'n' && t[a + 2] == ':'
  }

  lemma OnAtIsStartsFolded(t: string, a: nat)
    ensures OnAt(t, a) <==> StartsFolded(t, a, "on:")
  {
    if StartsFolded(t, a, "on:") {
      assert Fold(t[a + 2]) == ':';
    }
  }

  /** `\s+#(\d+)` from position `i`, just after `on:`. */
  function HashClause(t: string, i: nat): (m: Option<Hit>)
    requires i <= |t|
    ensures m.Some? ==> i < m.value.length <= |t|
  {
    var h := SkipSpaces(t, i);
    if h == i || h == |t| || t[h] != '#' then None
    else CaptureDigits(t, h + 1)
  }

  /** The capturing group `(\d+)` from position `i`: its value and where it ends. */
  function CaptureDigits(t: string, i: nat): (m: Option<Hit>)
    requires i <= |t|
    ensures m.Some? ==> i < m.value.length <= |t|
  {
    var e := SkipDigits(t, i);
    if e == i then None else Some(Hit(DecimalValue(t[i..e]), e))
  }

  /**
    Declarative reading of the pattern: `t[..e]` splits as a keyword
    `t[..k]`, at least one whitespace `t[k..a]`, `on:` at `a`, at least one
    whitespace up to the `#` at `h`, and the digits `t[h+1..e]`, which the
    greedy `\d+` extends as far as they go.
  */
  ghost predicate Decomposes(t: string, k: nat, a: nat, h: nat, e: nat) {
    && k < a && a + 3 < h && h + 1 < e <= |t|
    && FoldSeq(t[..k]) in Keywords
    && (forall j :: k <= j < a ==> IsSpace(t[j]))
    && FoldSeq(t[a..a + 3]) == "on:"
    && (forall j :: a + 3 <= j < h ==> IsSpace(t[j]))
    && t[h] == '#'
    && (forall j :: h < j < e ==> IsDigit(t[j]))
    && (e == |t| || !IsDigit(t[e]))
  }

  ghost predicate IsMatch(t: string, e: nat, v: nat) {
    exists k: nat, a: nat, h: nat ::
      Decomposes(t, k, a, h, e) && v == DecimalValue(t[h + 1..e])
  }

  /** The match that starts at position `i` of the body, if any. */
  function MatchAt(body: string, i: nat): Option<Hit>
    requires i <= |body|
  {
    MatchPrefix(body[i..])
  }

  /** Successive non-overlapping matches, left to right, as `FindAllStringSubmatch(body, -1)` returns them. */
  function DependOns(body: string): seq<nat>
    decreases |body|
  {
    if |body| == 0 then []
    else match MatchPrefix(body)
      case Some(hit) => [hit.value] + DependOns(body[hit.length..])
      case None => DependOns(body[1..])
  }


  // ---------------------------------------------------------------------
  // The scanner agrees with the declarative pattern.

  lemma FoldPrefixIs(t: string, i: nat, j: nat, w: string)
    requires i <= j <= |t|
    ensures FoldSeq(t[i..j]) == w <==> j - i == |w| && StartsFolded(t, i, w)
  {
    if FoldSeq(t[i..j]) == w {
      forall x | i <= x < i + |w|
        ensures Fold(t[x]) == w[x - i]
      {
        assert FoldSeq(t[i..j])[x - i] == Fold(t[i..j][x - i]);
      }
    }
    if j - i == |w| && StartsFolded(t, i, w) {
      forall x | 0 <= x < |w|
        ensures FoldSeq(t[i..j])[x] == w[x]
      {
        assert t[i..j][x] == t[i + x];
      }
    }
  }

  lemma NotStartsFolded(t: string, i: nat, w: string, x: nat)
    requires i <= x < i + |w| && x < |t| && Fold(t[x]) != w[x - i]
    ensures !StartsFolded(t, i, w)
  {
  }

  lemma StartsFoldedConcat(t: string, i: nat, w1: string, w2: string)
    ensures StartsFolded(t, i, w1 + w2) <==> StartsFolded(t, i, w1) && StartsFolded(t, i + |w1|, w2)
  {
    var w := w1 + w2;
    if StartsFolded(t, i, w1) && StartsFolded(t, i + |w1|, w2) {
      forall x | i <= x < i + |w|
        ensures Fold(t[x]) == w[x - i]
      {
        if x < i + |w1| {
          assert w[x - i] == w1[x - i];
        } else {
          assert w[x - i] == w2[x - (i + |w1|)];
        }
      }
    }
    if StartsFolded(t, i, w) {
      forall x | i + |w1| <= x < i + |w1| + |w2|
        ensures Fold(t[x]) == w2[x - (i + |w1|)]
      {
        assert w[x - i] == w2[x - (i + |w1|)];
      }
      forall x | i <= x < i + |w1|
        ensures Fold(t[x]) == w1[x - i]
      {
        assert w[x - i] == w1[x - i];
      }
    }
  }

  lemma FoldedNotSpace(c: char, l: char)
    requires Fold(c) == l && 'a' <= l <= 'z'
    ensures !IsSpace(c) && !IsDigit(c) && c != '#'
  {
  }

  lemma SkipSpacesStopsAt(t: string, i: nat, a: nat)
    requires i <= a <= |t|
    requires forall j :: i <= j < a ==> IsSpace(t[j])
    requires a == |t| || !IsSpace(t[a])
    ensures SkipSpaces(t, i) == a
    decreases a - i
  {
    if i < a {
      SkipSpacesStopsAt(t, i + 1, a);
    }
  }

  lemma SkipDigitsStopsAt(t: string, i: nat, e: nat)
    requires i <= e <= |t|
    requires forall j :: i <= j < e ==> IsDigit(t[j])
    requires e == |t| || !IsDigit(t[e])
    ensures SkipDigits(t, i) == e
    decreases e - i
  {
    if i < e {
      SkipDigitsStopsAt(t, i + 1, e);
    }
  }

  /** The keyword a decomposition starts with is the one `KeywordEnd` selects. */
  lemma KeywordEndComplete(t: string, k: nat)
    requires k < |t| && FoldSeq(t[..k]) in Keywords && IsSpace(t[k])
    ensures KeywordEnd(t) == Some(k)
  {
    var w := FoldSeq(t[..k]);
    assert t[..k] == t[0..k];
    FoldPrefixIs(t, 0, k, w);
    assert Fold(t[k]) == t[k];
    var suffix := if w == "depends" then "s" else if w == "depended" then "ed"
                  else if w == "depending" then "ing" else "";
    assert w == "depend" + suffix;
    StartsFoldedConcat(t, 0, "depend", suffix);
    if suffix == "" {
      NotStartsFolded(t, 6, "s", 6);
      if 8 <= |t| { NotStartsFolded(t, 6, "ed", 6); }
      if 9 <= |t| { NotStartsFolded(t, 6, "ing", 6); }
    } else if suffix == "ed" {
      NotStartsFolded(t, 6, "s", 6);
    } else if suffix == "ing" {
      NotStartsFolded(t, 6, "s", 6);
      NotStartsFolded(t, 6, "ed", 6);
    }
  }

  lemma CaptureDigitsComplete(t: string, i: nat, e: nat)
    requires i < e <= |t|
    requires forall j :: i <= j < e ==> IsDigit(t[j])
    requires e == |t| || !IsDigit(t[e])
    ensures CaptureDigits(t, i) == Some(Hit(DecimalValue(t[i..e]), e))
  {
    SkipDigitsStopsAt(t, i, e);
  }

  lemma MatchOnClauseSound(t: string, k: nat) returns (a: nat, h: nat)
    requires k <= |t| && MatchOnClause(t, k).Some?
    ensures var e := MatchOnClause(t, k).value.length;
            && k < a && a + 3 < h && h + 1 < e <= |t|
            && (forall j :: k <= j < a ==> IsSpace(t[j]))
            && FoldSeq(t[a..a + 3]) == "on:"
            && (forall j :: a + 3 <= j < h ==> IsSpace(t[j]))
            && t[h] == '#'
            && (forall j :: h < j < e ==> IsDigit(t[j]))
            && (e == |t| || !IsDigit(t[e]))
            && MatchOnClause(t, k).value.value == DecimalValue(t[h + 1..e])
  {
    a := SkipSpaces(t, k);
    h := SkipSpaces(t, a + 3);
    OnAtIsStartsFolded(t, a);
    FoldPrefixIs(t, a, a + 3, "on:");
  }

  lemma MatchOnClauseComplete(t: string, k: nat, a: nat, h: nat, e: nat)
    requires k < a && a + 3 < h && h + 1 < e <= |t|
    requires forall j :: k <= j < a ==> IsSpace(t[j])
    requires FoldSeq(t[a..a + 3]) == "on:"
    requires forall j :: a + 3 <= j < h ==> IsSpace(t[j])
    requires t[h] == '#'
    requires forall j :: h < j < e ==> IsDigit(t[j])
    requires e == |t| || !IsDigit(t[e])
    ensures MatchOnClause(t, k) == Some(Hit(DecimalValue(t[h + 1..e]), e))
  {
    OnClauseStart(t, k, a);
    SkipSpacesStopsAt(t, a + 3, h);
    CaptureDigitsComplete(t, h + 1, e);
  }

  lemma OnClauseStart(t: string, k: nat, a: nat)
    requires k <= a && a + 3 <= |t|
    requires forall j :: k <= j < a ==> IsSpace(t[j])
    requires FoldSeq(t[a..a + 3]) == "on:"
    ensures SkipSpaces(t, k) == a && OnAt(t, a)
  {
    FoldPrefixIs(t, a, a + 3, "on:");
    OnAtIsStartsFolded(t, a);
    assert Fold(t[a]) == 'o';
    FoldedNotSpace(t[a], 'o');
    SkipSpacesStopsAt(t, k, a);
  }

  lemma MatchPrefixSound(t: string)
    requires MatchPrefix(t).Some?
    ensures IsMatch(t, MatchPrefix(t).value.length, MatchPrefix(t).value.value)
  {
    var k := KeywordEnd(t).value;
    var a, h := MatchOnClauseSound(t, k);
    assert Decomposes(t, k, a, h, MatchPrefix(t).value.length);
  }

  lemma MatchPrefixComplete(t: string, k: nat, a: nat, h: nat, e: nat)
    requires Decomposes(t, k, a, h, e)
    ensures MatchPrefix(t) == Some(Hit(DecimalValue(t[h + 1..e]), e))
  {
    KeywordEndComplete(t, k);
    MatchOnClauseComplete(t, k, a, h, e);
  }

  /** The scanner finds exactly the matches the pattern describes. */
  lemma MatchPrefixIsPattern(t: string, e: nat, v: nat)
    ensures MatchPrefix(t) == Some(Hit(v, e)) <==> IsMatch(t, e, v)
  {
    if MatchPrefix(t) == Some(Hit(v, e)) {
      MatchPrefixSound(t);
    }
    if IsMatch(t, e, v) {
      MatchPrefixFromPattern(t, e, v);
    }
  }

  lemma MatchPrefixFromPattern(t: string, e: nat, v: nat)
    requires IsMatch(t, e, v)
    ensures MatchPrefix(t) == Some(Hit(v, e))
  {
    var k: nat, a: nat, h: nat :| Decomposes(t, k, a, h, e) && v == DecimalValue(t[h + 1..e]);
    MatchPrefixComplete(t, k, a, h, e);
  }

  // ---------------------------------------------------------------------
  // Properties of the extraction.

  lemma SuffixOfSuffix(s: string, i: nat, n: nat)
    requires i + n <= |s|
    ensures s[i..][n..] == s[i + n..]
  {
  }

  lemma DependOnsNoMatchStep(t: string)
    requires |t| > 0 && MatchPrefix(t).None?
    ensures DependOns(t) == DependOns(t[1..])
  {
  }

  lemma DependOnsMatchStep(t: string)
    requires MatchPrefix(t).Some?
    ensures DependOns(t) == [MatchPrefix(t).value.value] + DependOns(t[MatchPrefix(t).value.length..])
  {
  }

  /** Positions where the pattern does not match contribute nothing. */
  lemma {:induction false} SkipUnmatched(body: string, i: nat)
    requires i <= |body|
    requires forall p :: 0 <= p < i ==> MatchAt(body, p).None?
    ensures DependOns(body) == DependOns(body[i..])
  {
    if i == 0 {
      assert body[0..] == body;
    } else {
      SkipUnmatched(body, i - 1);
      var t := body[i - 1..];
      assert MatchAt(body, i - 1).None?;
      assert MatchPrefix(t).None?;
      DependOnsNoMatchStep(t);
      assert t[1..] == body[i..];
    }
  }

  /** A body in which the pattern matches nowhere declares no dependency. */
  lemma NoMatchNoDependOns(body: string)
    requires forall j :: 0 <= j < |body| ==> MatchAt(body, j).None?
    ensures DependOns(body) == []
  {
    SkipUnmatched(body, |body|);
    assert body[|body|..] == [];
  }

  /** A match anywhere in the body yields at least one dependency. */
  lemma {:induction false} MatchYieldsDependOn(body: string, j: nat)
    requires j < |body| && MatchAt(body, j).Some?
    ensures DependOns(body) != []
    decreases j
  {
    if forall p :: 0 <= p < j ==> MatchAt(body, p).None? {
      LeftmostMatchFirst(body, j);
    } else {
      var p :| 0 <= p < j && MatchAt(body, p).Some?;
      MatchYieldsDependOn(body, p);
    }
  }

  /** No dependency is extracted exactly when the pattern matches at no position. */
  lemma DependOnsEmptyIffNoMatch(body: string)
    ensures DependOns(body) == [] <==> forall j :: 0 <= j < |body| ==> MatchAt(body, j).None?
  {
    if forall j :: 0 <= j < |body| ==> MatchAt(body, j).None? {
      NoMatchNoDependOns(body);
    } else {
      var j :| 0 <= j < |body| && MatchAt(body, j).Some?;
      MatchYieldsDependOn(body, j);
    }
  }

  /**
    The first extracted value is the one captured by the leftmost match, and
    extraction resumes right after that match (matches never overlap).
  */
  lemma LeftmostMatchFirst(body: string, j: nat)
    requires j < |body| && MatchAt(body, j).Some?
    requires forall i :: 0 <= i < j ==> MatchAt(body, i).None?
    ensures DependOns(body) == [MatchAt(body, j).value.value]
                               + DependOns(body[j + MatchAt(body, j).value.length..])
  {
    SkipUnmatched(body, j);
    var t := body[j..];
    assert MatchPrefix(t) == MatchAt(body, j);
    DependOnsMatchStep(t);
    SuffixOfSuffix(body, j, MatchPrefix(t).value.length);
  }

  /** Two texts equal up to ASCII case. */
  ghost predicate SameFold(s: string, t: string) {
    |s| == |t| && forall j :: 0 <= j < |s| ==> Fold(s[j]) == Fold(t[j])
  }

  lemma StartsFoldedSame(s: string, t: string, i: nat, w: string)
    requires SameFold(s, t)
    ensures StartsFolded(s, i, w) <==> StartsFolded(t, i, w)
  {
  }

  lemma FoldEqualChars(c: char, d: char)
    requires Fold(c) == Fold(d)
    ensures IsSpace(c) <==> IsSpace(d)
    ensures IsDigit(c) ==> c == d
    ensures c == '#' <==> d == '#'
  {
  }

  lemma SameFoldSpaces(s: string, t: string)
    requires SameFold(s, t)
    ensures forall j :: 0 <= j < |s| ==> (IsSpace(s[j]) <==> IsSpace(t[j]))
  {
    forall j | 0 <= j < |s|
      ensures IsSpace(s[j]) <==> IsSpace(t[j])
    {
      FoldEqualChars(s[j], t[j]);
    }
  }

  lemma SameFoldClasses(s: string, t: string)
    requires SameFold(s, t)
    ensures forall j :: 0 <= j < |s| ==> (IsSpace(s[j]) <==> IsSpace(t[j]))
    ensures forall j :: 0 <= j < |s| ==> (IsDigit(s[j]) || IsDigit(t[j]) ==> s[j] == t[j])
    ensures forall j :: 0 <= j < |s| ==> (s[j] == '#' <==> t[j] == '#')
  {
    forall j | 0 <= j < |s|
      ensures IsSpace(s[j]) <==> IsSpace(t[j])
      ensures IsDigit(s[j]) || IsDigit(t[j]) ==> s[j] == t[j]
      ensures s[j] == '#' <==> t[j] == '#'
    {
      FoldEqualChars(s[j], t[j]);
      FoldEqualChars(t[j], s[j]);
    }
  }

  lemma KeywordEndIgnoresCase(s: string, t: string)
    requires SameFold(s, t)
    ensures KeywordEnd(s) == KeywordEnd(t)
  {
    StartsFoldedSame(s, t, 0, "depend");
    StartsFoldedSame(s, t, 6, "s");
    StartsFoldedSame(s, t, 6, "ed");
    StartsFoldedSame(s, t, 6, "ing");
  }

  lemma CaptureDigitsIgnoresCase(s: string, t: string, i: nat)
    requires SameFold(s, t) && i <= |s|
    ensures CaptureDigits(s, i) == CaptureDigits(t, i)
  {
    SameFoldClasses(s, t);
    var e := SkipDigits(s, i);
    SkipDigitsStopsAt(t, i, e);
    assert s[i..e] == t[i..e];
  }

  lemma SkipSpacesIgnoresCase(s: string, t: string, i: nat)
    requires SameFold(s, t) && i <= |s|
    ensures SkipSpaces(s, i) == SkipSpaces(t, i)
  {
    SameFoldSpaces(s, t);
    SkipSpacesStopsAt(t, i, SkipSpaces(s, i));
  }

  /** `MatchOnClause` is determined by the run of spaces, the `on:` test and what follows. */
  lemma MatchOnClauseCongruent(s: string, t: string, k: nat, a: nat)
    requires k <= |s| && k <= |t|
    requires SkipSpaces(s, k) == a && SkipSpaces(t, k) == a
    requires OnAt(s, a) <==> OnAt(t, a)
    requires OnAt(s, a) ==> a + 3 <= |t| && HashClause(s, a + 3) == HashClause(t, a + 3)
    ensures MatchOnClause(s, k) == MatchOnClause(t, k)
  {
  }

  lemma MatchOnClauseIgnoresCase(s: string, t: string, k: nat)
    requires SameFold(s, t) && k <= |s|
    ensures MatchOnClause(s, k) == MatchOnClause(t, k)
  {
    var a := SkipSpaces(s, k);
    SkipSpacesIgnoresCase(s, t, k);
    if a + 3 <= |s| {
      FoldEqualChars(s[a + 2], t[a + 2]);
      assert Fold(s[a]) == Fold(t[a]) && Fold(s[a + 1]) == Fold(t[a + 1]);
    }
    if OnAt(s, a) {
      HashClauseIgnoresCase(s, t, a + 3);
    }
    MatchOnClauseCongruent(s, t, k, a);
  }

  lemma HashClauseIgnoresCase(s: string, t: string, i: nat)
    requires SameFold(s, t) && i <= |s|
    ensures HashClause(s, i) == HashClause(t, i)
  {
    var h := SkipSpaces(s, i);
    SkipSpacesIgnoresCase(s, t, i);
    if h != i && h < |s| {
      FoldEqualChars(s[h], t[h]);
      if s[h] == '#' {
        CaptureDigitsIgnoresCase(s, t, h + 1);
      }
    }
  }

  /** Whether the pattern matches at the start depends only on the case-folded text. */
  lemma MatchPrefixIgnoresCase(s: string, t: string)
    requires SameFold(s, t)
    ensures MatchPrefix(s) == MatchPrefix(t)
  {
    KeywordEndIgnoresCase(s, t);
    if KeywordEnd(s).Some? {
      MatchOnClauseIgnoresCase(s, t, KeywordEnd(s).value);
    }
  }

  lemma SameFoldSuffix(s: string, t: string, n: nat)
    requires SameFold(s, t) && n <= |s|
    ensures SameFold(s[n..], t[n..])
  {
    forall j | 0 <= j < |s| - n
      ensures Fold(s[n..][j]) == Fold(t[n..][j])
    {
      assert s[n..][j] == s[n + j] && t[n..][j] == t[n + j];
    }
  }

  lemma {:induction false} DependOnsSameFold(s: string, t: string)
    requires SameFold(s, t)
    ensures DependOns(s) == DependOns(t)
    decreases |s|
  {
    if |s| > 0 {
      MatchPrefixIgnoresCase(s, t);
      if MatchPrefix(s).Some? {
        var n := MatchPrefix(s).value.length;
        DependOnsMatchStep(s);
        DependOnsMatchStep(t);
        SameFoldSuffix(s, t, n);
        DependOnsSameFold(s[n..], t[n..]);
      } else {
        DependOnsNoMatchStep(s);
        DependOnsNoMatchStep(t);
        SameFoldSuffix(s, t, 1);
        DependOnsSameFold(s[1..], t[1..]);
      }
    }
  }

  /** Extraction is case-insensitive: texts equal up to ASCII case yield the same dependencies. */
  lemma DependOnsIgnoreCase(s: string, t: string)
    requires FoldSeq(s) == FoldSeq(t)
    ensures DependOns(s) == DependOns(t)
  {
    assert SameFold(s, t) by {
      forall j | 0 <= j < |s|
        ensures Fold(s[j]) == Fold(t[j])
      {
        assert FoldSeq(s)[j] == FoldSeq(t)[j];
      }
    }
    DependOnsSameFold(s, t);
  }

  /** Lower-casing a body does not change what is extracted from it. */
  lemma DependOnsOfLowerCase(body: string)
    ensures DependOns(FoldSeq(body)) == DependOns(body)
  {
    assert FoldSeq(FoldSeq(body)) == FoldSeq(body);
    DependOnsIgnoreCase(FoldSeq(body), body);
  }

  lemma NoColonNoMatch(t: string)
    requires forall j :: 0 <= j < |t| ==> t[j] != ':'
    ensures MatchPrefix(t).None?
  {
    if KeywordEnd(t).Some? {
      var a := SkipSpaces(t, KeywordEnd(t).value);
      assert !OnAt(t, a) by {
        if a + 3 <= |t| {
          assert t[a + 2] != ':';
        }
      }
    }
  }

  lemma NoColonNoMatchAt(body: string, j: nat)
    requires j <= |body|
    requires forall i :: 0 <= i < |body| ==> body[i] != ':'
    ensures MatchAt(body, j).None?
  {
    var t := body[j..];
    assert forall x :: 0 <= x < |t| ==> t[x] == body[j + x];
    NoColonNoMatch(t);
  }

  /** The colon after `on` is mandatory: a body without one declares nothing. */
  lemma ColonRequired(body: string)
    requires forall j :: 0 <= j < |body| ==> body[j] != ':'
    ensures DependOns(body) == []
  {
    forall j | 0 <= j < |body|
      ensures MatchAt(body, j).None?
    {
      NoColonNoMatchAt(body, j);
    }
    NoMatchNoDependOns(body);
  }

  // ---------------------------------------------------------------------
  // Writing annotations, the inverse of extraction.

  /** The annotation a developer writes: `<keyword> on: #<n>`. */
  function Annotation(keyword: string, n: nat): string {
    keyword + " on: #" + DecimalString(n)
  }

  /** One annotation per line, in order. */
  function Render(ns: seq<nat>): string {
    if |ns| == 0 then [] else Annotation("depends", ns[0]) + "\n" + Render(ns[1..])
  }

  lemma MiddleSlice<T>(a: seq<T>, b: seq<T>, c: seq<T>)
    ensures (a + b + c)[..|a|] == a
    ensures (a + b + c)[|a|..|a| + |b|] == b
  {
  }

  /** An annotation matches where it starts, provided no digit follows it. */
  lemma AnnotationMatches(keyword: string, n: nat, rest: string)
    requires keyword in Keywords && FoldSeq(keyword) == keyword
    requires |rest| == 0 || !IsDigit(rest[0])
    ensures MatchPrefix(Annotation(keyword, n) + rest)
            == Some(Hit(n, |Annotation(keyword, n)|))
  {
    var ds := DecimalString(n);
    var mid := " on: #";
    var t := Annotation(keyword, n) + rest;
    var k := |keyword|;
    var e := k + 6 + |ds|;
    assert t == keyword + mid + (ds + rest);
    MiddleSlice(keyword, mid, ds + rest);
    assert t[..k] == keyword;
    assert t[k..k + 6] == mid;
    assert t[k] == mid[0] && t[k + 4] == mid[4] && t[k + 5] == mid[5];
    assert t[k + 1..k + 4] == mid[1..4] == "on:";
    assert FoldSeq(t[k + 1..k + 4]) == "on:";
    assert t == (keyword + mid) + ds + rest;
    MiddleSlice(keyword + mid, ds, rest);
    assert t[k + 6..e] == ds;
    assert |rest| > 0 ==> t[e] == rest[0];
    assert Decomposes(t, k, k + 1, k + 5, e);
    MatchPrefixComplete(t, k, k + 1, k + 5, e);
    DecimalRoundTrip(n);
  }

  /** Extraction inverts rendering: every value comes back, in order, duplicates kept. */
  lemma {:induction false} RenderRoundTrip(ns: seq<nat>)
    ensures DependOns(Render(ns)) == ns
  {
    if |ns| > 0 {
      var a := Annotation("depends", ns[0]);
      var rest := Render(ns[1..]);
      var u := "\n" + rest;
      var t := a + u;
      assert Render(ns) == t;
      AnnotationMatches("depends", ns[0], u);
      assert t[|a|..] == u;
      assert MatchPrefix(u).None? by {
        NotStartsFolded(u, 0, "depend", 0);
      }
      assert u[1..] == rest;
      RenderRoundTrip(ns[1..]);
    }
  }
}

=== FILE: external.dfy ===
/**
  The external `git` and `gh` invocations of main.go, seen as oracles. Each
  reply type lists what the Go wrapper can hand back to its caller; the
  events record which commands were attempted, in order, with enough of
  their result to state the ordering guarantees of the program.

  The `gh` calls made through go-gh (`gh repo view`, `gh pr list`,
  `gh pr view`) always leave an event, carrying the error when there is one,
  whether `gh` failed or could not be found at all. The commands main.go
  starts itself after `safeexec.LookPath` (`git status`, `git fetch`,
  `gh pr checkout`, `git rebase`) leave no event when the tool is missing.
*/
module External {
  import opened PullRequests

  /** `IsCurrentBranchDirty`: git not on PATH, `git status --porcelain` failing, or its output. */
  datatype StatusReply = StatusGitMissing(err: string) | StatusFailed(err: string) | Porcelain(output: string)

  /**
    `GetDefaultBranch`. Output on stderr with a zero exit status makes the Go
    wrapper return `"", nil`, which is `BranchName("")` here.
  */
  datatype BranchReply = BranchName(name: string) | BranchError(err: string)

  /** `FetchOriginBranch`. */
  datatype FetchReply = FetchGitMissing(err: string) | FetchFailed(err: string) | Fetched

  /**
    `ListPullRequests`. Output on stderr with a zero exit status makes the Go
    wrapper return `nil, nil`, which is `Listed([])` here.
  */
  datatype ListReply = Listed(prs: seq<PullRequest>) | ListError(err: string)

  /**
    `GetPullRequest`. Output on stderr with a zero exit status makes the Go
    wrapper return `nil, nil`: no pull request and no error.
  */
  datatype LookupReply = Found(pr: PullRequest) | NilWithoutError | LookupError(err: string)

  /** `gh pr checkout <number>`. */
  datatype CheckoutReply = CheckoutGhMissing(err: string) | CheckoutOk | CheckoutExit(stderr: string, err: string)

  /** `git rebase --onto <base> <oldParent> <branch>`. */
  datatype RebaseReply = RebaseGitMissing(err: string) | RebaseOk | RebaseExit(stderr: string, err: string)

  /** What the external tools answer while one pull request is processed. */
  datatype Replies = Replies(
    lookup: LookupReply,
    checkout: CheckoutReply,
    rebase: RebaseReply,
    abortOk: bool)

  /** One external command that was attempted, with its result. */
  datatype Event =
    | GitStatus(ok: bool)
    | GhRepoView(ok: bool)
    | GitFetch(branch: string, ok: bool)
    | GhPrList(ok: bool)
    | GhPrView(dependOn: nat, reply: LookupReply)
    | GhPrCheckout(prNumber: int, ok: bool)
    | GitRebaseOnto(onto: string, oldParent: string, topic: string, ok: bool)
    | GitRebaseAbort(ok: bool)

  predicate FailedRebase(e: Event) {
    e.GitRebaseOnto? && !e.ok
  }

  /** A looked-up dependency that exists and is merged. */
  predicate MergedLookup(e: Event) {
    e.GhPrView? && e.reply.Found? && e.reply.pr.state == "MERGED"
  }

  /** Every failed rebase is immediately followed by `git rebase --abort`. */
  ghost predicate AbortsFailedRebases(t: seq<Event>) {
    forall i :: 0 <= i < |t| && FailedRebase(t[i]) ==> i + 1 < |t| && t[i + 1].GitRebaseAbort?
  }

  /** `git rebase --abort` is only ever run right after a failed rebase. */
  ghost predicate AbortsOnlyAfterFailure(t: seq<Event>) {
    forall i :: 0 <= i < |t| && t[i].GitRebaseAbort? ==> 0 < i && FailedRebase(t[i - 1])
  }

  /**
    A rebase is only run right after a successful checkout, which in turn
    follows the lookup of a merged dependency; the rebase replays onto the
    dependency's merge commit.
  */
  ghost predicate RebasesFollowCheckout(t: seq<Event>) {
    forall i :: 0 <= i < |t| && t[i].GitRebaseOnto? ==>
      && 1 < i
      && t[i - 1].GhPrCheckout? && t[i - 1].ok
      && MergedLookup(t[i - 2])
      && t[i].oldParent == t[i - 2].reply.pr.mergeCommitOid
  }

  /** A checkout is only run right after the lookup of a merged dependency. */
  ghost predicate CheckoutsFollowMergedLookup(t: seq<Event>) {
    forall i :: 0 <= i < |t| && t[i].GhPrCheckout? ==> 0 < i && MergedLookup(t[i - 1])
  }

  /** The ordering guarantees of the destructive commands. */
  ghost predicate Protocol(t: seq<Event>) {
    && AbortsFailedRebases(t)
    && AbortsOnlyAfterFailure(t)
    && RebasesFollowCheckout(t)
    && CheckoutsFollowMergedLookup(t)
  }

  /** Traces that keep the protocol can be run one after the other and still keep it. */
  lemma ProtocolConcat(a: seq<Event>, b: seq<Event>)
    requires Protocol(a) && Protocol(b)
    ensures Protocol(a + b)
  {
    var t := a + b;
    forall i | 0 <= i < |t| && FailedRebase(t[i])
      ensures i + 1 < |t| && t[i + 1].GitRebaseAbort?
    {
      if i < |a| {
        assert FailedRebase(a[i]);
      } else {
        assert FailedRebase(b[i - |a|]);
      }
    }
    forall i | 0 <= i < |t| && t[i].GitRebaseAbort?
      ensures 0 < i && FailedRebase(t[i - 1])
    {
      if i < |a| {
        assert a[i].GitRebaseAbort?;
      } else {
        assert b[i - |a|].GitRebaseAbort?;
      }
    }
    forall i | 0 <= i < |t| && t[i].GitRebaseOnto?
      ensures 1 < i && t[i - 1].GhPrCheckout? && t[i - 1].ok && MergedLookup(t[i - 2])
      ensures t[i].oldParent == t[i - 2].reply.pr.mergeCommitOid
    {
      if i < |a| {
        assert a[i].GitRebaseOnto?;
      } else {
        assert b[i - |a|].GitRebaseOnto?;
      }
    }
    forall i | 0 <= i < |t| && t[i].GhPrCheckout?
      ensures 0 < i && MergedLookup(t[i - 1])
    {
      if i < |a| {
        assert a[i].GhPrCheckout?;
      } else {
        assert b[i - |a|].GhPrCheckout?;
      }
    }
  }
}

=== FILE: pipeline.dfy ===
/**
  The per-pull-request loop of main.go: extract the declared dependencies,
  look the single dependency up, check it is merged, check the dependent
  branch out and rebase it onto the default branch. Each pull request ends in
  exactly one `Processed` value, or the program panics.
*/
module Pipeline {
  import opened Wrappers
  import opened PullRequests
  import opened External
  import opened Rebase
  import opened DependOn

  /** The state `gh` reports for a merged pull request; compared case-sensitively. */
  const MergedState: string := "MERGED"

  datatype StepResult = Done(outcome: Processed) | Panicked(panic: Panic)

  /** The commands run for one pull request, and how its processing ended. */
  datatype Step = Step(events: seq<Event>, result: StepResult)

  /** Every external step succeeds, so the pull request is rebased. */
  predicate AllStepsSucceed(pr: PullRequest, rep: Replies) {
    && |DependOns(pr.body)| == 1
    && rep.lookup.Found? && rep.lookup.pr.state == MergedState
    && rep.checkout.CheckoutOk?
    && rep.rebase.RebaseOk?
  }

  /** The inputs on which the Go program panics while processing this pull request. */
  predicate PanicsOn(pr: PullRequest, rep: Replies) {
    && |DependOns(pr.body)| == 1
    && (|| rep.lookup.NilWithoutError?
        || (&& rep.lookup.Found? && rep.lookup.pr.state == MergedState
            && rep.checkout.CheckoutOk?
            && rep.rebase.RebaseExit? && Contains(rep.rebase.stderr, ConflictMarker)
            && |rep.lookup.pr.mergeCommitOid| < ShortOidLength))
  }

  /** The lookup found the dependency, and it is merged. */
  predicate MergedFound(rep: Replies) {
    rep.lookup.Found? && rep.lookup.pr.state == MergedState
  }

  /** The rebase main.go runs for `pr` once its dependency `depended` is merged and checked out. */
  function RebaseOf(pr: PullRequest, depended: PullRequest, defaultBranch: string, rep: Replies): RebaseRun {
    RebaseOntoPullRequest("origin/" + defaultBranch, depended.mergeCommitOid, pr.headRefName, rep.rebase, rep.abortOk)
  }

  /** The trace shapes one iteration can produce all keep the protocol. */
  lemma IterationProtocol(dependOn: nat, lookup: LookupReply, checkout: seq<Event>, rebase: seq<Event>)
    requires checkout == [] || (MergedLookup(GhPrView(dependOn, lookup)) && |checkout| == 1 && checkout[0].GhPrCheckout?)
    requires rebase != [] ==>
               && checkout != [] && checkout[0].ok
               && rebase[0].GitRebaseOnto? && rebase[0].oldParent == lookup.pr.mergeCommitOid
               && (if rebase[0].ok then |rebase| == 1 else |rebase| == 2 && rebase[1].GitRebaseAbort?)
    ensures Protocol([GhPrView(dependOn, lookup)] + checkout + rebase)
  {
  }

  /** The checkout succeeded: rebase the dependent branch onto the default branch. */
  function Rebasing(pr: PullRequest, dependOn: nat, depended: PullRequest, defaultBranch: string, rep: Replies): (s: Step)
    requires rep.lookup == Found(depended) && depended.state == MergedState && rep.checkout.CheckoutOk?
    ensures Protocol(s.events)
    ensures 2 <= |s.events| && s.events[..2] == [GhPrView(dependOn, rep.lookup), GhPrCheckout(pr.number, true)]
    ensures |s.events| <= 4
    ensures forall e <- s.events[2..] :: e.GitRebaseOnto? || e.GitRebaseAbort?
    ensures forall e <- s.events :: e.GitRebaseOnto? ==>
              e.onto == "origin/" + defaultBranch && e.topic == pr.headRefName
    ensures s.result.Panicked? <==>
              rep.rebase.RebaseExit? && Contains(rep.rebase.stderr, ConflictMarker)
              && |depended.mergeCommitOid| < ShortOidLength
    ensures s.result.Done? ==>
              && s.result.outcome.pr == pr && s.result.outcome.dependOns == [dependOn]
              && WellFormed(s.result.outcome)
              && (s.result.outcome.error.None? <==> rep.rebase.RebaseOk?)
              && (s.result.outcome.depended.Some? ==> s.result.outcome.depended.value == depended)
    // the rebase's own result decides the outcome
    ensures var r := RebaseOf(pr, depended, defaultBranch, rep).outcome;
            && (r.Rebased? ==> s.result == Done(Processed(pr, [dependOn], Some(depended), None)))
            && (r.RebaseErrored? ==>
                  s.result == Done(Processed(pr, [dependOn], None, Some(RebaseFailed(dependOn, r.error)))))
            && (r.RebasePanicked? ==> s.result == Panicked(r.panic))
  {
    var rebase := RebaseOf(pr, depended, defaultBranch, rep);
    var events := [GhPrView(dependOn, rep.lookup), GhPrCheckout(pr.number, true)] + rebase.events;
    IterationProtocol(dependOn, rep.lookup, [GhPrCheckout(pr.number, true)], rebase.events);
    assert [GhPrView(dependOn, rep.lookup)] + [GhPrCheckout(pr.number, true)] + rebase.events == events;
    match rebase.outcome
    case Rebased =>
      Step(events, Done(Processed(pr, [dependOn], Some(depended), None)))
    case RebaseErrored(err) =>
      Step(events, Done(Processed(pr, [dependOn], None, Some(RebaseFailed(dependOn, err)))))
    case RebasePanicked(panic) =>
      Step(events, Panicked(panic))
  }

  /** The dependency is merged: check the dependent pull request out, then rebase it. */
  function CheckingOut(pr: PullRequest, dependOn: nat, depended: PullRequest, defaultBranch: string, rep: Replies): (s: Step)
    requires rep.lookup == Found(depended) && depended.state == MergedState
    ensures Protocol(s.events)
    ensures 0 < |s.events| <= 4 && s.events[0] == GhPrView(dependOn, rep.lookup)
    ensures forall e <- s.events[1..] :: e.GhPrCheckout? || e.GitRebaseOnto? || e.GitRebaseAbort?
    ensures !rep.checkout.CheckoutOk? ==> |s.events| <= 2
    ensures forall e <- s.events :: e.GhPrCheckout? ==> e.prNumber == pr.number
    ensures forall e <- s.events :: e.GitRebaseOnto? ==>
              e.onto == "origin/" + defaultBranch && e.topic == pr.headRefName
    ensures s.result.Panicked? <==>
              rep.checkout.CheckoutOk? && rep.rebase.RebaseExit? && Contains(rep.rebase.stderr, ConflictMarker)
              && |depended.mergeCommitOid| < ShortOidLength
    ensures s.result.Done? ==>
              && s.result.outcome.pr == pr && s.result.outcome.dependOns == [dependOn]
              && WellFormed(s.result.outcome)
              && (s.result.outcome.error.None? <==> rep.checkout.CheckoutOk? && rep.rebase.RebaseOk?)
              && (s.result.outcome.depended.Some? ==> s.result.outcome.depended.value == depended)
    ensures !rep.checkout.CheckoutOk? ==>
              s.result == Done(Processed(pr, [dependOn], None,
                Some(CheckoutFailed(dependOn, CheckoutToPullRequest(pr.number, rep.checkout).error.value))))
    ensures rep.checkout.CheckoutOk? ==>
              var r := RebaseOf(pr, depended, defaultBranch, rep).outcome;
              && (r.Rebased? ==> s.result == Done(Processed(pr, [dependOn], Some(depended), None)))
              && (r.RebaseErrored? ==>
                    s.result == Done(Processed(pr, [dependOn], None, Some(RebaseFailed(dependOn, r.error)))))
              && (r.RebasePanicked? ==> s.result == Panicked(r.panic))
  {
    var checkout := CheckoutToPullRequest(pr.number, rep.checkout);
    if checkout.error.Some? then
      IterationProtocol(dependOn, rep.lookup, checkout.events, []);
      assert [GhPrView(dependOn, rep.lookup)] + checkout.events + [] == [GhPrView(dependOn, rep.lookup)] + checkout.events;
      Step([GhPrView(dependOn, rep.lookup)] + checkout.events,
           Done(Processed(pr, [dependOn], None, Some(CheckoutFailed(dependOn, checkout.error.value)))))
    else
      Rebasing(pr, dependOn, depended, defaultBranch, rep)
  }

  /** Exactly one dependency: look it up and carry on only if it is merged. */
  function LookingUp(pr: PullRequest, dependOn: nat, defaultBranch: string, rep: Replies): (s: Step)
    ensures Protocol(s.events)
    ensures 0 < |s.events| && s.events[0] == GhPrView(dependOn, rep.lookup)
    ensures forall e <- s.events[1..] :: e.GhPrCheckout? || e.GitRebaseOnto? || e.GitRebaseAbort?
    ensures !(rep.lookup.Found? && rep.lookup.pr.state == MergedState) ==> |s.events| == 1
    ensures !rep.checkout.CheckoutOk? ==> |s.events| <= 2
    ensures forall e <- s.events :: e.GhPrCheckout? ==> e.prNumber == pr.number
    ensures forall e <- s.events :: e.GitRebaseOnto? ==>
              e.onto == "origin/" + defaultBranch && e.topic == pr.headRefName
    ensures s.result.Panicked? <==>
              || rep.lookup.NilWithoutError?
              || (&& rep.lookup.Found? && rep.lookup.pr.state == MergedState
                  && rep.checkout.CheckoutOk?
                  && rep.rebase.RebaseExit? && Contains(rep.rebase.stderr, ConflictMarker)
                  && |rep.lookup.pr.mergeCommitOid| < ShortOidLength)
    ensures s.result.Done? ==>
              && s.result.outcome.pr == pr && s.result.outcome.dependOns == [dependOn]
              && WellFormed(s.result.outcome)
              && (s.result.outcome.error.None? <==>
                    rep.lookup.Found? && rep.lookup.pr.state == MergedState
                    && rep.checkout.CheckoutOk? && rep.rebase.RebaseOk?)
              && (s.result.outcome.depended.Some? ==>
                    rep.lookup.Found? && s.result.outcome.depended.value == rep.lookup.pr
                    && rep.lookup.pr.state == MergedState)
    // which failure each failed step records
    ensures rep.lookup.LookupError? ==>
              s.result == Done(Processed(pr, [dependOn], None, Some(LookupFailed(dependOn, rep.lookup.err))))
    ensures rep.lookup.NilWithoutError? ==> s.result == Panicked(NilDependedPullRequest(dependOn))
    ensures rep.lookup.Found? && rep.lookup.pr.state != MergedState ==>
              s.result == Done(Processed(pr, [dependOn], None, Some(NotMerged(dependOn))))
    ensures MergedFound(rep) && !rep.checkout.CheckoutOk? ==>
              s.result == Done(Processed(pr, [dependOn], None,
                Some(CheckoutFailed(dependOn, CheckoutToPullRequest(pr.number, rep.checkout).error.value))))
    ensures MergedFound(rep) && rep.checkout.CheckoutOk? ==>
              var r := RebaseOf(pr, rep.lookup.pr, defaultBranch, rep).outcome;
              && (r.Rebased? ==> s.result == Done(Processed(pr, [dependOn], Some(rep.lookup.pr), None)))
              && (r.RebaseErrored? ==>
                    s.result == Done(Processed(pr, [dependOn], None, Some(RebaseFailed(dependOn, r.error)))))
              && (r.RebasePanicked? ==> s.result == Panicked(r.panic))
  {
    var lookup := [GhPrView(dependOn, rep.lookup)];
    assert Protocol(lookup) by { IterationProtocol(dependOn, rep.lookup, [], []); assert lookup + [] + [] == lookup; }
    match rep.lookup
    case LookupError(err) =>
      Step(lookup, Done(Processed(pr, [dependOn], None, Some(LookupFailed(dependOn, err)))))
    case NilWithoutError =>
      Step(lookup, Panicked(NilDependedPullRequest(dependOn)))
    case Found(depended) =>
      if depended.state != MergedState then
        Step(lookup, Done(Processed(pr, [dependOn], None, Some(NotMerged(dependOn)))))
      else
        CheckingOut(pr, dependOn, depended, defaultBranch, rep)
  }

  /** One iteration of the loop over the listed pull requests. */
  function ProcessOne(pr: PullRequest, defaultBranch: string, rep: Replies): (s: Step)
    ensures Protocol(s.events)
    ensures s.result.Panicked? <==> PanicsOn(pr, rep)
    ensures s.result.Done? ==>
              && s.result.outcome.pr == pr
              && s.result.outcome.dependOns == DependOns(pr.body)
              && WellFormed(s.result.outcome)
              && (s.result.outcome.error.None? <==> AllStepsSucceed(pr, rep))
    // no dependency, or several: nothing is run
    ensures |DependOns(pr.body)| != 1 ==> s.events == [] && s.result.Done?
    ensures |DependOns(pr.body)| == 0 ==> s.result.outcome.error == Some(NoDependOn)
    ensures |DependOns(pr.body)| > 1 ==>
              s.result.outcome.error == Some(MultipleDependencies(DependOns(pr.body)))
    // exactly one: the lookup comes first, and a failed step stops the rest
    ensures |DependOns(pr.body)| == 1 ==> 0 < |s.events| && s.events[0] == GhPrView(DependOns(pr.body)[0], rep.lookup)
    ensures !(rep.lookup.Found? && rep.lookup.pr.state == MergedState) ==>
              forall e <- s.events :: !e.GhPrCheckout? && !e.GitRebaseOnto? && !e.GitRebaseAbort?
    ensures !rep.checkout.CheckoutOk? ==> forall e <- s.events :: !e.GitRebaseOnto? && !e.GitRebaseAbort?
    ensures forall e <- s.events :: e.GhPrCheckout? ==> e.prNumber == pr.number
    ensures forall e <- s.events :: e.GitRebaseOnto? ==>
              e.onto == "origin/" + defaultBranch && e.topic == pr.headRefName
    ensures s.result.Done? && s.result.outcome.depended.Some? ==>
              && rep.lookup.Found? && s.result.outcome.depended.value == rep.lookup.pr
              && s.result.outcome.depended.value.state == MergedState
  {
    var dependOns := DependOns(pr.body);
    if |dependOns| == 0 then
      Step([], Done(Processed(pr, [], None, Some(NoDependOn))))
    else if |dependOns| > 1 then
      Step([], Done(Processed(pr, dependOns, None, Some(MultipleDependencies(dependOns)))))
    else
      assert dependOns == [dependOns[0]];
      LookingUp(pr, dependOns[0], defaultBranch, rep)
  }

  /**
    With exactly one declared dependency, the failure a pull request records
    is the one of the first step that failed: the lookup, the merge state, the
    checkout or the rebase, carrying that step's own error.
  */
  lemma ProcessOneFailureKinds(pr: PullRequest, defaultBranch: string, rep: Replies)
    ensures |DependOns(pr.body)| == 1 && rep.lookup.LookupError? ==>
              var n := DependOns(pr.body)[0];
              ProcessOne(pr, defaultBranch, rep).result == Done(Processed(pr, [n], None, Some(LookupFailed(n, rep.lookup.err))))
    ensures |DependOns(pr.body)| == 1 && rep.lookup.NilWithoutError? ==>
              ProcessOne(pr, defaultBranch, rep).result == Panicked(NilDependedPullRequest(DependOns(pr.body)[0]))
    ensures |DependOns(pr.body)| == 1 && rep.lookup.Found? && rep.lookup.pr.state != MergedState ==>
              var n := DependOns(pr.body)[0];
              ProcessOne(pr, defaultBranch, rep).result == Done(Processed(pr, [n], None, Some(NotMerged(n))))
    ensures |DependOns(pr.body)| == 1 && MergedFound(rep) && !rep.checkout.CheckoutOk? ==>
              var n := DependOns(pr.body)[0];
              ProcessOne(pr, defaultBranch, rep).result == Done(Processed(pr, [n], None,
                Some(CheckoutFailed(n, CheckoutToPullRequest(pr.number, rep.checkout).error.value))))
    ensures |DependOns(pr.body)| == 1 && MergedFound(rep) && rep.checkout.CheckoutOk? ==>
              var n := DependOns(pr.body)[0];
              var r := RebaseOf(pr, rep.lookup.pr, defaultBranch, rep).outcome;
              && (r.Rebased? ==> ProcessOne(pr, defaultBranch, rep).result == Done(Processed(pr, [n], Some(rep.lookup.pr), None)))
              && (r.RebaseErrored? ==> ProcessOne(pr, defaultBranch, rep).result == Done(Processed(pr, [n], None, Some(RebaseFailed(n, r.error)))))
              && (r.RebasePanicked? ==> ProcessOne(pr, defaultBranch, rep).result == Panicked(r.panic))
  {
    var d := DependOns(pr.body);
    if |d| == 1 {
      assert d == [d[0]];
      assert ProcessOne(pr, defaultBranch, rep) == LookingUp(pr, d[0], defaultBranch, rep);
    }
  }

  /** The loop's state after some prefix of the pull requests: the result list, the commands run, and a panic if one happened. */
  datatype Batch = Batch(outcomes: seq<Processed>, events: seq<Event>, panic: Option<Panic>)

  /** The commands of the given iterations, in order. */
  function Commands(steps: seq<Step>): (t: seq<Event>)
    ensures forall e <- t :: exists k :: 0 <= k < |steps| && e in steps[k].events
    decreases |steps|
  {
    if |steps| == 0 then []
    else
      var init := Commands(steps[..|steps| - 1]);
      assert forall k :: 0 <= k < |steps| - 1 ==> steps[..|steps| - 1][k] == steps[k];
      init + steps[|steps| - 1].events
  }

  /** Iterations that each keep the protocol keep it together. */
  lemma {:induction false} CommandsProtocol(steps: seq<Step>)
    requires forall k :: 0 <= k < |steps| ==> Protocol(steps[k].events)
    ensures Protocol(Commands(steps))
    decreases |steps|
  {
    if |steps| > 0 {
      var init := steps[..|steps| - 1];
      CommandsProtocol(init);
      ProtocolConcat(Commands(init), steps[|steps| - 1].events);
    }
  }

  /** Iterations whose rebases all target `onto` issue, together, only rebases onto `onto`. */
  lemma CommandsOnto(steps: seq<Step>, onto: string)
    requires forall k :: 0 <= k < |steps| ==> forall e <- steps[k].events :: e.GitRebaseOnto? ==> e.onto == onto
    ensures forall e <- Commands(steps) :: e.GitRebaseOnto? ==> e.onto == onto
  {
  }

  /** How many iterations ran: all of them, or up to and including the one that panicked. */
  function IterationsRun(b: Batch): nat {
    if b.panic.Some? then |b.outcomes| + 1 else |b.outcomes|
  }

  /**
    The loop over iterations whose results are already known: keep the
    outcome of each, and stop at the first panic.
  */
  function RunSteps(steps: seq<Step>): (b: Batch)
    ensures IterationsRun(b) <= |steps|
    ensures b.panic.None? ==> |b.outcomes| == |steps|
    ensures b.panic.Some? ==> steps[|b.outcomes|].result == Panicked(b.panic.value)
    ensures forall k :: 0 <= k < |b.outcomes| ==> steps[k].result == Done(b.outcomes[k])
    ensures b.events == Commands(steps[..IterationsRun(b)])
    decreases |steps|
  {
    if |steps| == 0 then
      assert steps[..0] == [];
      Batch([], [], None)
    else
      var last := |steps| - 1;
      var init := steps[..last];
      var before := RunSteps(init);
      assert init[..IterationsRun(before)] == steps[..IterationsRun(before)];
      if before.panic.Some? then before
      else
        var step := steps[last];
        assert steps[..|steps|][..last] == init;
        match step.result
        case Done(outcome) => Batch(before.outcomes + [outcome], before.events + step.events, None)
        case Panicked(panic) => Batch(before.outcomes, before.events + step.events, Some(panic))
  }

  /** What each pull request's iteration does on its own, with its own replies. */
  function Iterations(prs: seq<PullRequest>, defaultBranch: string, replies: nat -> Replies): seq<Step> {
    seq(|prs|, k requires 0 <= k < |prs| => ProcessOne(prs[k], defaultBranch, replies(k)))
  }

  lemma IterationsAt(prs: seq<PullRequest>, defaultBranch: string, replies: nat -> Replies)
    ensures |Iterations(prs, defaultBranch, replies)| == |prs|
    ensures forall k :: 0 <= k < |prs| ==>
              Iterations(prs, defaultBranch, replies)[k] == ProcessOne(prs[k], defaultBranch, replies(k))
  {
  }

  /**
    The loop of main.go over the listed pull requests. The k-th pull request
    sees the replies `replies(k)`; a failure is recorded and the loop goes
    on, a panic ends the loop (and the program) at once.
  */
  function ProcessAll(prs: seq<PullRequest>, defaultBranch: string, replies: nat -> Replies): (b: Batch)
    ensures Protocol(b.events)
    ensures b.panic.None? ==> |b.outcomes| == |prs|
    ensures b.panic.Some? ==>
              && |b.outcomes| < |prs|
              && ProcessOne(prs[|b.outcomes|], defaultBranch, replies(|b.outcomes|)).result
                 == Panicked(b.panic.value)
    ensures forall k :: 0 <= k < |b.outcomes| ==>
              ProcessOne(prs[k], defaultBranch, replies(k)).result == Done(b.outcomes[k])
    ensures forall e <- b.events :: e.GitRebaseOnto? ==> e.onto == "origin/" + defaultBranch
    ensures b.events == Commands(Iterations(prs, defaultBranch, replies)[..IterationsRun(b)])
  {
    var steps := Iterations(prs, defaultBranch, replies);
    IterationsAt(prs, defaultBranch, replies);
    var b := RunSteps(steps);
    var ran := steps[..IterationsRun(b)];
    CommandsProtocol(ran);
    CommandsOnto(ran, "origin/" + defaultBranch);
    b
  }
}

=== FILE: pull_request.dfy ===
/**
  The records main.go works with: the pull request as `gh` reports it and the
  per-pull-request outcome that the processing loop appends to its result list.
*/
module PullRequests {
  import opened Wrappers

  /**
    The JSON fields requested from `gh pr list` and `gh pr view`. The nested
    `mergeCommit.oid` is flattened; a pull request without a merge commit has
    the empty string there, as Go's zero value gives.
  */
  datatype PullRequest = PullRequest(
    baseRefName: string,
    headRefName: string,
    body: string,
    isDraft: bool,
    number: int,
    title: string,
    url: string,
    state: string,
    mergeCommitOid: string)

  /** The errors `CheckoutToPullRequest` returns. */
  datatype CheckoutError =
    | GhNotFound(err: string)                    // safeexec.LookPath("gh") failed
    | CheckoutExited(stderr: string, err: string) // "%s: %w" of stderr and the exit error

  /** The errors `RebaseOntoPullRequest` returns. */
  datatype RebaseError =
    | GitNotFound(err: string)
    | Conflicted(topicBranch: string, targetBase: string, oldParentShort: string)
    | RebaseExited(stderr: string, err: string)

  /**
    The `Error` of a processed pull request. `NoDependOn` is the sentinel
    `ErrNoDependOn`; every other case is one of the wrapped errors built in
    the processing loop, keeping the values that its message mentions.
  */
  datatype Failure =
    | NoDependOn
    | MultipleDependencies(dependOns: seq<nat>)
    | LookupFailed(dependOn: nat, lookupError: string)
    | NotMerged(dependOn: nat)
    | CheckoutFailed(dependOn: nat, checkoutError: CheckoutError)
    | RebaseFailed(dependOn: nat, rebaseError: RebaseError)

  /** `ProcessedPullRequest`: the pull request, its declared dependencies, the dependency once resolved, and the error. */
  datatype Processed = Processed(
    pr: PullRequest,
    dependOns: seq<nat>,
    depended: Option<PullRequest>,
    error: Option<Failure>)

  /** The two panics the model keeps. */
  datatype Panic =
    | NilDependedPullRequest(dependOn: nat)  // `dependedPullRequest.State` on a nil pointer
    | OldParentTooShort(oldParent: string)   // `oldParent[:7]` past the end of the string

  /** A successful outcome names its dependency, and only a successful one does. */
  predicate WellFormed(p: Processed) {
    p.error.None? <==> p.depended.Some?
  }
}

=== FILE: rebase.dfy ===
/**
  The two mutating steps that main.go runs for a pull request whose single
  dependency is merged: `CheckoutToPullRequest` and `RebaseOntoPullRequest`.
*/
module Rebase {
  import opened Wrappers
  import opened PullRequests
  import opened External

  /** The text git prints when a commit cannot be replayed; its presence marks a conflict. */
  const ConflictMarker: string := "could not apply"

  /** How many characters of the old parent commit the conflict message shows. */
  const ShortOidLength: nat := 7

  /** `sub` occurs in `s` starting at position `i`. */
  predicate OccursAt(s: string, sub: string, i: nat) {
    i + |sub| <= |s| && s[i..i + |sub|] == sub
  }

  /** Go's `strings.Contains`. */
  predicate Contains(s: string, sub: string) {
    exists i: nat :: i <= |s| && OccursAt(s, sub, i)
  }

  /** Text placed between two others is contained in the result. */
  lemma ContainsInMiddle(a: string, sub: string, c: string)
    ensures Contains(a + sub + c, sub)
  {
    var s := a + sub + c;
    assert s[|a|..|a| + |sub|] == sub;
    assert OccursAt(s, sub, |a|);
  }

  datatype CheckoutRun = CheckoutRun(events: seq<Event>, error: Option<CheckoutError>)

  /** `gh pr checkout <number>`, with the error wrapping of `CheckoutToPullRequest`. */
  function CheckoutToPullRequest(number: int, reply: CheckoutReply): (r: CheckoutRun)
    ensures r.error.None? <==> reply.CheckoutOk?
    ensures reply.CheckoutGhMissing? <==> r.events == []
    ensures reply.CheckoutGhMissing? ==> r.error == Some(GhNotFound(reply.err))
    ensures r.events != [] ==> r.events == [GhPrCheckout(number, r.error.None?)]
    ensures reply.CheckoutExit? ==> r.error == Some(CheckoutExited(reply.stderr, reply.err))
  {
    match reply
    case CheckoutGhMissing(err) => CheckoutRun([], Some(GhNotFound(err)))
    case CheckoutOk => CheckoutRun([GhPrCheckout(number, true)], None)
    case CheckoutExit(stderr, err) => CheckoutRun([GhPrCheckout(number, false)], Some(CheckoutExited(stderr, err)))
  }

  datatype RebaseOutcome = Rebased | RebaseErrored(error: RebaseError) | RebasePanicked(panic: Panic)

  datatype RebaseRun = RebaseRun(events: seq<Event>, outcome: RebaseOutcome)

  /**
    `RebaseOntoPullRequest`: replay `topicBranch` minus `oldParent` onto
    `targetBase`; on failure run `git rebase --abort`, ignore its result, and
    classify the failure by the text on stderr.
  */
  function RebaseOntoPullRequest(targetBase: string, oldParent: string, topicBranch: string,
                                 reply: RebaseReply, abortOk: bool): (r: RebaseRun)
    ensures r.outcome.Rebased? <==> reply.RebaseOk?
    ensures reply.RebaseGitMissing? <==> r.events == []
    ensures reply.RebaseGitMissing? ==> r.outcome == RebaseErrored(GitNotFound(reply.err))
    ensures reply.RebaseOk? ==> r.events == [GitRebaseOnto(targetBase, oldParent, topicBranch, true)]
    ensures reply.RebaseExit? ==>
              r.events == [GitRebaseOnto(targetBase, oldParent, topicBranch, false), GitRebaseAbort(abortOk)]
    ensures r.outcome.RebaseErrored? && r.outcome.error.Conflicted? <==>
              reply.RebaseExit? && Contains(reply.stderr, ConflictMarker) && |oldParent| >= ShortOidLength
    ensures r.outcome.RebaseErrored? && r.outcome.error.Conflicted? ==>
              && r.outcome.error.topicBranch == topicBranch
              && r.outcome.error.targetBase == targetBase
              && |r.outcome.error.oldParentShort| == ShortOidLength
              && r.outcome.error.oldParentShort <= oldParent
    ensures r.outcome.RebasePanicked? <==>
              reply.RebaseExit? && Contains(reply.stderr, ConflictMarker) && |oldParent| < ShortOidLength
    ensures r.outcome.RebasePanicked? ==> r.outcome.panic == OldParentTooShort(oldParent)
    ensures reply.RebaseExit? && !Contains(reply.stderr, ConflictMarker) ==>
              r.outcome == RebaseErrored(RebaseExited(reply.stderr, reply.err))
  {
    match reply
    case RebaseGitMissing(err) => RebaseRun([], RebaseErrored(GitNotFound(err)))
    case RebaseOk => RebaseRun([GitRebaseOnto(targetBase, oldParent, topicBranch, true)], Rebased)
    case RebaseExit(stderr, err) =>
      var events := [GitRebaseOnto(targetBase, oldParent, topicBranch, false), GitRebaseAbort(abortOk)];
      if Contains(stderr, ConflictMarker) then
        if |oldParent| < ShortOidLength then RebaseRun(events, RebasePanicked(OldParentTooShort(oldParent)))
        else RebaseRun(events, RebaseErrored(Conflicted(topicBranch, targetBase, oldParent[..ShortOidLength])))
      else RebaseRun(events, RebaseErrored(RebaseExited(stderr, err)))
  }

  /** What a rebase reports never depends on whether the cleanup `git rebase --abort` succeeded. */
  lemma AbortResultIgnored(targetBase: string, oldParent: string, topicBranch: string, reply: RebaseReply)
    ensures RebaseOntoPullRequest(targetBase, oldParent, topicBranch, reply, true).outcome
         == RebaseOntoPullRequest(targetBase, oldParent, topicBranch, reply, false).outcome
  {
  }
}

=== FILE: report.dfy ===
/**
  The summary main.go prints once every pull request is processed: the
  rebased pull requests with their dependency, then the ones not rebased with
  their error. Only the partition, the order and the colours are modelled,
  not the text.
*/
module Report {
  import opened Wrappers
  import opened PullRequests
  import opened External
  import opened Pipeline
  import opened DependOn

  /** The terminal colours the report uses for pull request numbers. */
  datatype Color = HiBlack | Green | Magenta | Red

  /** How an error line is highlighted: a hint for "no dependencies found", an alarm otherwise. */
  datatype Tone = Hint | Alarm

  /** `getColor`: the colour of a pull request number, by state and draft flag. */
  function GetColor(pr: PullRequest): (c: Color)
    ensures c == Green <==> pr.state == "OPEN" && !pr.isDraft
    ensures c == Magenta <==> pr.state == MergedState
    ensures c == Red <==> pr.state == "CLOSED"
    ensures c == HiBlack <==>
              (pr.state == "OPEN" && pr.isDraft) || pr.state !in ["OPEN", MergedState, "CLOSED"]
  {
    match pr.state
    case "OPEN" => if pr.isDraft then HiBlack else Green
    case "MERGED" => Magenta
    case "CLOSED" => Red
    case _ => HiBlack
  }

  /** The colour of a number in the "not rebased" list, which looks only at the draft flag. */
  function NotRebasedColor(pr: PullRequest): (c: Color)
    ensures c == HiBlack <==> pr.isDraft
    ensures c != HiBlack ==> c == Green
  {
    if pr.isDraft then HiBlack else Green
  }

  /** For the open pull requests that `gh pr list --state open` returns, both colourings agree. */
  lemma NotRebasedColorAgreesForOpen(pr: PullRequest)
    requires pr.state == "OPEN"
    ensures NotRebasedColor(pr) == GetColor(pr)
  {
  }

  /** `errors.Is(pr.Error, ErrNoDependOn)`: only the sentinel itself is highlighted as a hint. */
  function ToneOf(f: Failure): (t: Tone)
    ensures t == Hint <==> f.NoDependOn?
  {
    if f == NoDependOn then Hint else Alarm
  }

  /** The outcomes listed under "Rebased pull requests", in processing order. */
  function Rebased(os: seq<Processed>): (r: seq<Processed>)
    ensures |r| <= |os|
  {
    if |os| == 0 then []
    else (if os[0].error.None? then [os[0]] else []) + Rebased(os[1..])
  }

  /** The outcomes listed under "Pull requests not rebased", in processing order. */
  function NotRebased(os: seq<Processed>): (r: seq<Processed>)
    ensures |r| <= |os|
  {
    if |os| == 0 then []
    else (if os[0].error.Some? then [os[0]] else []) + NotRebased(os[1..])
  }

  /** The rebased list holds exactly the successful outcomes, the other list exactly the failed ones. */
  lemma {:induction false} ListsMembership(os: seq<Processed>)
    ensures forall o :: o in Rebased(os) <==> o in os && o.error.None?
    ensures forall o :: o in NotRebased(os) <==> o in os && o.error.Some?
    decreases |os|
  {
    if |os| > 0 {
      var x, rest := os[0], os[1..];
      ListsMembership(rest);
      assert os == [x] + rest;
      if x.error.None? {
        assert Rebased(os) == [x] + Rebased(rest);
        assert NotRebased(os) == NotRebased(rest);
      } else {
        assert Rebased(os) == Rebased(rest);
        assert NotRebased(os) == [x] + NotRebased(rest);
      }
    }
  }

  /** `a` can be obtained from `b` by deleting elements: the order of `b` is kept. */
  predicate Subsequence<T(==)>(a: seq<T>, b: seq<T>)
    decreases |b|
  {
    if |a| == 0 then true
    else if |b| == 0 then false
    else if a[0] == b[0] then Subsequence(a[1..], b[1..])
    else Subsequence(a, b[1..])
  }

  /** Dropping the first element of a subsequence leaves a subsequence. */
  lemma {:induction false} SubsequenceDropFirst<T>(a: seq<T>, b: seq<T>)
    requires |a| > 0 && Subsequence(a, b)
    ensures Subsequence(a[1..], b)
    decreases |b|, 1
  {
    if a[0] == b[0] {
      SubsequenceExtend(a[1..], b[0], b[1..]);
      assert [b[0]] + b[1..] == b;
    } else {
      SubsequenceDropFirst(a, b[1..]);
      SubsequenceExtend(a[1..], b[0], b[1..]);
      assert [b[0]] + b[1..] == b;
    }
  }

  /** A subsequence of `b` is a subsequence of any sequence that extends `b` at the front. */
  lemma {:induction false} SubsequenceExtend<T>(c: seq<T>, x: T, b: seq<T>)
    requires Subsequence(c, b)
    ensures Subsequence(c, [x] + b)
    decreases |b| + 1, 0
  {
    assert ([x] + b)[1..] == b;
    if |c| > 0 && c[0] == x {
      SubsequenceDropFirst(c, b);
    }
  }

  /** Both lists keep the processing order. */
  lemma {:induction false} ListsKeepOrder(os: seq<Processed>)
    ensures Subsequence(Rebased(os), os)
    ensures Subsequence(NotRebased(os), os)
    decreases |os|
  {
    if |os| > 0 {
      var x, rest := os[0], os[1..];
      ListsKeepOrder(rest);
      assert os == [x] + rest;
      SubsequenceExtend(Rebased(rest), x, rest);
      SubsequenceExtend(NotRebased(rest), x, rest);
      if x.error.None? {
        assert Rebased(os) == [x] + Rebased(rest);
        assert NotRebased(os) == NotRebased(rest);
        assert ([x] + Rebased(rest))[1..] == Rebased(rest);
      } else {
        assert NotRebased(os) == [x] + NotRebased(rest);
        assert Rebased(os) == Rebased(rest);
        assert ([x] + NotRebased(rest))[1..] == NotRebased(rest);
      }
    }
  }

  /** The two lists split the outcomes: together they hold each outcome exactly as often as the run produced it. */
  lemma {:induction false} ListsPartition(os: seq<Processed>)
    ensures multiset(Rebased(os)) + multiset(NotRebased(os)) == multiset(os)
    decreases |os|
  {
    if |os| > 0 {
      var x, rest := os[0], os[1..];
      ListsPartition(rest);
      assert [x] + rest == os;
      RebasedOfConcat([x], rest);
      NotRebasedOfConcat([x], rest);
      assert multiset(Rebased([x])) + multiset(NotRebased([x])) == multiset{x} by {
        assert [x][1..] == [];
      }
    }
  }

  /** Every outcome is listed exactly once. */
  lemma ListsCount(os: seq<Processed>)
    ensures |Rebased(os)| + |NotRebased(os)| == |os|
  {
    ListsPartition(os);
    assert |multiset(Rebased(os)) + multiset(NotRebased(os))| == |multiset(os)|;
  }

  /** The rebased list of a run's outcomes is the rebased lists of its parts, one after the other. */
  lemma {:induction false} RebasedOfConcat(a: seq<Processed>, b: seq<Processed>)
    ensures Rebased(a + b) == Rebased(a) + Rebased(b)
    decreases |a|
  {
    if |a| > 0 {
      RebasedOfConcat(a[1..], b);
      var x := a[0];
      assert (a + b)[0] == x && (a + b)[1..] == a[1..] + b;
      var head := if x.error.None? then [x] else [];
      assert Rebased(a + b) == head + Rebased(a[1..] + b);
      assert Rebased(a) == head + Rebased(a[1..]);
    } else {
      assert a + b == b;
    }
  }

  /** The same for the list of pull requests not rebased. */
  lemma {:induction false} NotRebasedOfConcat(a: seq<Processed>, b: seq<Processed>)
    ensures NotRebased(a + b) == NotRebased(a) + NotRebased(b)
    decreases |a|
  {
    if |a| > 0 {
      NotRebasedOfConcat(a[1..], b);
      var x := a[0];
      assert (a + b)[0] == x && (a + b)[1..] == a[1..] + b;
      var head := if x.error.Some? then [x] else [];
      assert NotRebased(a + b) == head + NotRebased(a[1..] + b);
      assert NotRebased(a) == head + NotRebased(a[1..]);
    } else {
      assert a + b == b;
    }
  }

  /** One line pair under "Rebased pull requests". */
  datatype RebasedEntry = RebasedEntry(
    baseRefName: string, headRefName: string,
    number: int, numberColor: Color, url: string,
    dependedNumber: int, dependedColor: Color, dependedUrl: string)

  /** One line group under "Pull requests not rebased". */
  datatype NotRebasedEntry = NotRebasedEntry(
    baseRefName: string, headRefName: string,
    number: int, numberColor: Color, url: string,
    error: Failure, tone: Tone)

  /**
    The colour of the dependency's number as main.go writes it: the colour is
    recomputed from the dependent pull request, not from the dependency.
  */
  function DependedColorAsWritten(o: Processed): Color {
    GetColor(o.pr)
  }

  /** As written, the dependency's colour ignores the dependency altogether: any other dependency gets the same colour. */
  lemma DependedColorIgnoresDependency(o: Processed, d: Option<PullRequest>)
    ensures DependedColorAsWritten(o.(depended := d)) == DependedColorAsWritten(o)
  {
  }

  /**
    The colour the dependency's number evidently should have: the one
    computed from the dependency itself. `Summarize` keeps the program's
    colour, `DependedColorAsWritten`.
  */
  function DependedColor(o: Processed): (c: Color)
    requires o.depended.Some?
    ensures o.depended.value.state == MergedState ==> c == Magenta
  {
    GetColor(o.depended.value)
  }

  function RebasedEntryOf(o: Processed): (e: RebasedEntry)
    requires o.depended.Some?
  {
    RebasedEntry(o.pr.baseRefName, o.pr.headRefName, o.pr.number, GetColor(o.pr), o.pr.url,
                 o.depended.value.number, DependedColorAsWritten(o), o.depended.value.url)
  }

  function NotRebasedEntryOf(o: Processed): (e: NotRebasedEntry)
    requires o.error.Some?
  {
    NotRebasedEntry(o.pr.baseRefName, o.pr.headRefName, o.pr.number, NotRebasedColor(o.pr), o.pr.url,
                    o.error.value, ToneOf(o.error.value))
  }

  datatype Summary = Summary(rebased: seq<RebasedEntry>, notRebased: seq<NotRebasedEntry>)

  /** The printed summary of the outcomes. A successful outcome always names its dependency. */
  function Summarize(os: seq<Processed>): (s: Summary)
    requires forall o <- os :: WellFormed(o)
    ensures |s.rebased| + |s.notRebased| == |os|
    ensures |s.rebased| == |Rebased(os)| && |s.notRebased| == |NotRebased(os)|
    ensures forall i :: 0 <= i < |s.rebased| ==>
              && s.rebased[i].number == Rebased(os)[i].pr.number
              && Rebased(os)[i].depended.Some?
              && s.rebased[i].dependedNumber == Rebased(os)[i].depended.value.number
              && s.rebased[i].numberColor == GetColor(Rebased(os)[i].pr)
              && s.rebased[i].dependedColor == s.rebased[i].numberColor
    ensures forall i :: 0 <= i < |s.notRebased| ==>
              && s.notRebased[i].number == NotRebased(os)[i].pr.number
              && NotRebased(os)[i].error.Some?
              && s.notRebased[i].error == NotRebased(os)[i].error.value
              && (s.notRebased[i].tone == Hint <==> s.notRebased[i].error == NoDependOn)
              && (s.notRebased[i].numberColor == HiBlack <==> NotRebased(os)[i].pr.isDraft)
              && s.notRebased[i].numberColor == NotRebasedColor(NotRebased(os)[i].pr)
  {
    var rebased := Rebased(os);
    var notRebased := NotRebased(os);
    ListsCount(os);
    ListsMembership(os);
    assert forall o <- rebased :: o.depended.Some? by {
      forall o <- rebased ensures o.depended.Some? {
        assert o in os && WellFormed(o);
      }
    }
    Summary(seq(|rebased|, i requires 0 <= i < |rebased| => RebasedEntryOf(rebased[i])),
            seq(|notRebased|, i requires 0 <= i < |notRebased| => NotRebasedEntryOf(notRebased[i])))
  }

  /** A pull request is listed as rebased exactly when every external step for it succeeded. */
  lemma RebasedIffAllStepsSucceed(pr: PullRequest, defaultBranch: string, rep: Replies)
    requires ProcessOne(pr, defaultBranch, rep).result.Done?
    ensures var o := ProcessOne(pr, defaultBranch, rep).result.outcome;
            (o in Rebased([o]) <==> AllStepsSucceed(pr, rep))
            && (o in NotRebased([o]) <==> !AllStepsSucceed(pr, rep))
  {
  }

  /** The hint tone marks exactly the pull requests whose body declares no dependency. */
  lemma HintIffNoDependency(pr: PullRequest, defaultBranch: string, rep: Replies)
    requires ProcessOne(pr, defaultBranch, rep).result.Done?
    requires ProcessOne(pr, defaultBranch, rep).result.outcome.error.Some?
    ensures ToneOf(ProcessOne(pr, defaultBranch, rep).result.outcome.error.value) == Hint
            <==> DependOns(pr.body) == []
  {
  }

  /**
    Every dependency listed under "Rebased pull requests" is merged, so the
    corrected colour of its number is magenta.
  */
  lemma RebasedDependencyIsMagenta(pr: PullRequest, defaultBranch: string, rep: Replies)
    requires ProcessOne(pr, defaultBranch, rep).result.Done?
    requires ProcessOne(pr, defaultBranch, rep).result.outcome.error.None?
    ensures var o := ProcessOne(pr, defaultBranch, rep).result.outcome;
            o.depended.Some? && DependedColor(o) == Magenta
  {
  }

  /**
    An open, non-draft pull request whose merged dependency it was rebased
    onto: main.go colours the dependency's number green, the colour of the
    dependent pull request, where the dependency's own colour is magenta.
  */
  lemma DependedColorAsWrittenMislabels()
    ensures var pr := PullRequest("main", "topic", Render([123]), false, 124, "t", "u124", "OPEN", "");
            var dep := PullRequest("main", "base", "", false, 123, "d", "u123", MergedState, "0123456789");
            var o := ProcessOne(pr, "main", Replies(Found(dep), CheckoutOk, RebaseOk, true)).result.outcome;
            && o.error.None?
            && DependedColorAsWritten(o) == Green
            && DependedColor(o) == Magenta
  {
    RenderRoundTrip([123]);
  }
}

=== FILE: run.dfy ===
/**
  The `main` function of main.go up to the report: refuse to run on a dirty
  working tree, resolve and fetch the default branch, list the user's open
  pull requests and process each of them.
*/
module Cascade {
  import opened Wrappers
  import opened PullRequests
  import opened External
  import opened Pipeline

  /** `IsCurrentBranchDirty`: the branch is dirty exactly when `git status --porcelain` prints anything. */
  function IsCurrentBranchDirty(reply: StatusReply): (r: Result<bool, string>)
    ensures r.Success? <==> reply.Porcelain?
    ensures r.Success? ==> (r.value <==> |reply.output| > 0)
    ensures r.Failure? ==> r.error == reply.err
  {
    match reply
    case StatusGitMissing(err) => Failure(err)
    case StatusFailed(err) => Failure(err)
    case Porcelain(output) => Success(output != [])
  }

  /** Everything the external tools answer during one run. */
  datatype Env = Env(
    status: StatusReply,
    defaultBranch: BranchReply,
    fetch: FetchReply,
    list: ListReply,
    replies: nat -> Replies)

  /** Why a run stopped before processing any pull request. */
  datatype Stop =
    | StatusUnknown(err: string)       // `IsCurrentBranchDirty` returned an error
    | DirtyWorkingTree
    | NoDefaultBranch(err: string)     // "resolve default branch: ..."
    | NotFetched(branch: string, err: string) // "fetch origin/<branch> branch: ..."
    | NotListed(err: string)           // "list pull requests: ..."
    | NoPullRequests                   // "No open or draft pull requests found."

  datatype RunResult =
    | Stopped(stop: Stop, trace: seq<Event>)
    | Finished(outcomes: seq<Processed>, trace: seq<Event>)
    | Crashed(panic: Panic, trace: seq<Event>)

  /** The commands run before the processing loop. */
  predicate IsSetup(e: Event) {
    e.GitStatus? || e.GhRepoView? || e.GitFetch? || e.GhPrList?
  }

  /** Read-only commands cannot break the protocol. */
  lemma SetupProtocol(t: seq<Event>)
    requires forall e <- t :: IsSetup(e)
    ensures Protocol(t)
  {
    forall i | 0 <= i < |t|
      ensures !t[i].GhPrCheckout? && !t[i].GitRebaseOnto? && !t[i].GitRebaseAbort?
    {
      assert IsSetup(t[i]);
    }
  }

  /** The `git status` command, when git can be found. */
  function StatusEvents(reply: StatusReply): (t: seq<Event>)
    ensures reply.StatusGitMissing? <==> t == []
    ensures t != [] ==> t == [GitStatus(reply.Porcelain?)]
  {
    match reply
    case StatusGitMissing(_) => []
    case StatusFailed(_) => [GitStatus(false)]
    case Porcelain(_) => [GitStatus(true)]
  }

  /** The `git fetch origin <branch>` command, when git can be found. */
  function FetchEvents(branch: string, reply: FetchReply): (t: seq<Event>)
    ensures reply.FetchGitMissing? <==> t == []
    ensures t != [] ==> t == [GitFetch(branch, reply.Fetched?)]
  {
    match reply
    case FetchGitMissing(_) => []
    case FetchFailed(_) => [GitFetch(branch, false)]
    case Fetched => [GitFetch(branch, true)]
  }

  /** The dirty-check guard: the run goes past it only on a clean working tree. */
  predicate Clean(env: Env) {
    env.status.Porcelain? && |env.status.output| == 0
  }

  /** Every preparatory step succeeded and there is something to process. */
  predicate Prepared(env: Env) {
    && Clean(env)
    && env.defaultBranch.BranchName?
    && env.fetch.Fetched?
    && env.list.Listed?
    && |env.list.prs| > 0
  }

  /** The processing loop, after the preparatory commands `setup`. */
  function Processing(setup: seq<Event>, prs: seq<PullRequest>, branch: string, replies: nat -> Replies): (r: RunResult)
    requires forall e <- setup :: IsSetup(e)
    ensures !r.Stopped?
    ensures Protocol(r.trace)
    ensures r.Finished? <==> ProcessAll(prs, branch, replies).panic.None?
    ensures r.Finished? ==>
              && |r.outcomes| == |prs|
              && forall k :: 0 <= k < |r.outcomes| ==>
                   r.outcomes[k] == ProcessOne(prs[k], branch, replies(k)).result.outcome
    ensures forall e <- r.trace :: e.GitRebaseOnto? ==> e.onto == "origin/" + branch
    ensures r.trace == setup + ProcessAll(prs, branch, replies).events
    ensures r.Crashed? ==> r.panic == ProcessAll(prs, branch, replies).panic.value
  {
    var batch := ProcessAll(prs, branch, replies);
    SetupProtocol(setup);
    ProtocolConcat(setup, batch.events);
    var trace := setup + batch.events;
    assert forall e <- setup :: !e.GitRebaseOnto?;
    match batch.panic
    case Some(panic) => Crashed(panic, trace)
    case None => Finished(batch.outcomes, trace)
  }

  /** The default branch is fetched: list the pull requests and process them. */
  function Listing(setup: seq<Event>, list: ListReply, branch: string, replies: nat -> Replies): (r: RunResult)
    requires forall e <- setup :: IsSetup(e)
    ensures Protocol(r.trace)
    ensures r.Stopped? ==> forall e <- r.trace :: IsSetup(e)
    ensures list.ListError? ==> r == Stopped(NotListed(list.err), setup + [GhPrList(false)])
    ensures list.Listed? && |list.prs| == 0 ==> r == Stopped(NoPullRequests, setup + [GhPrList(true)])
    ensures !r.Stopped? <==> list.Listed? && |list.prs| > 0
    ensures r.Finished? <==> list.Listed? && |list.prs| > 0 && ProcessAll(list.prs, branch, replies).panic.None?
    ensures r.Finished? ==>
              && |r.outcomes| == |list.prs|
              && forall k :: 0 <= k < |r.outcomes| ==>
                   r.outcomes[k] == ProcessOne(list.prs[k], branch, replies(k)).result.outcome
    ensures forall e <- r.trace :: e.GitRebaseOnto? ==> e.onto == "origin/" + branch
  {
    match list
    case ListError(err) =>
      var t := setup + [GhPrList(false)];
      SetupProtocol(t);
      Stopped(NotListed(err), t)
    case Listed(prs) =>
      var t := setup + [GhPrList(true)];
      assert forall e <- t :: IsSetup(e);
      if |prs| == 0 then
        SetupProtocol(t);
        Stopped(NoPullRequests, t)
      else Processing(t, prs, branch, replies)
  }

  /** The default branch is resolved: fetch it, then go on listing. */
  function Fetching(branch: string, env: Env): (r: RunResult)
    ensures Protocol(r.trace)
    ensures 2 <= |r.trace| && r.trace[..2] == [GitStatus(true), GhRepoView(true)]
    ensures !env.fetch.Fetched? ==> r.Stopped? && r.stop == NotFetched(branch, env.fetch.err)
    ensures r.Stopped? ==> forall e <- r.trace :: IsSetup(e)
    ensures !r.Stopped? <==> env.fetch.Fetched? && env.list.Listed? && |env.list.prs| > 0
    ensures r.Finished? <==>
              env.fetch.Fetched? && env.list.Listed? && |env.list.prs| > 0
              && ProcessAll(env.list.prs, branch, env.replies).panic.None?
    ensures r.Finished? ==>
              && |r.outcomes| == |env.list.prs|
              && forall k :: 0 <= k < |r.outcomes| ==>
                   r.outcomes[k] == ProcessOne(env.list.prs[k], branch, env.replies(k)).result.outcome
    ensures forall e <- r.trace :: e.GitRebaseOnto? ==> e.onto == "origin/" + branch
  {
    var t := [GitStatus(true), GhRepoView(true)] + FetchEvents(branch, env.fetch);
    assert forall e <- t :: IsSetup(e);
    assert t[..2] == [GitStatus(true), GhRepoView(true)];
    match env.fetch
    case FetchGitMissing(err) =>
      SetupProtocol(t);
      Stopped(NotFetched(branch, err), t)
    case FetchFailed(err) =>
      SetupProtocol(t);
      Stopped(NotFetched(branch, err), t)
    case Fetched =>
      var r := Listing(t, env.list, branch, env.replies);
      assert r.trace[..2] == t[..2];
      r
  }

  /** The working tree is clean: resolve the default branch, then go on fetching. */
  function Preparing(env: Env): (r: RunResult)
    requires Clean(env)
    ensures Protocol(r.trace)
    ensures 0 < |r.trace| && r.trace[0] == GitStatus(true)
    ensures env.defaultBranch.BranchError? ==>
              r == Stopped(NoDefaultBranch(env.defaultBranch.err), [GitStatus(true), GhRepoView(false)])
    ensures env.defaultBranch.BranchName? && !env.fetch.Fetched? ==>
              r.Stopped? && r.stop == NotFetched(env.defaultBranch.name, env.fetch.err)
    ensures r.Stopped? ==> forall e <- r.trace :: IsSetup(e)
    ensures !r.Stopped? <==> Prepared(env)
    ensures r.Finished? <==> Prepared(env) && ProcessAll(env.list.prs, env.defaultBranch.name, env.replies).panic.None?
    ensures r.Finished? ==>
              && |r.outcomes| == |env.list.prs|
              && forall k :: 0 <= k < |r.outcomes| ==>
                   r.outcomes[k] == ProcessOne(env.list.prs[k], env.defaultBranch.name, env.replies(k)).result.outcome
    ensures forall e <- r.trace :: e.GitRebaseOnto? ==> e.onto == "origin/" + env.defaultBranch.name
  {
    match env.defaultBranch
    case BranchError(err) =>
      var t := [GitStatus(true), GhRepoView(false)];
      SetupProtocol(t);
      Stopped(NoDefaultBranch(err), t)
    case BranchName(branch) =>
      var r := Fetching(branch, env);
      assert r.trace[0] == r.trace[..2][0];
      r
  }

  /** The run, from the dirty check to the end of the processing loop. */
  function Run(env: Env): (r: RunResult)
    ensures Protocol(r.trace)
    // the guard: an unknown or dirty state stops the run before any gh command
    ensures env.status.Porcelain? ==> 0 < |r.trace| && r.trace[0] == GitStatus(true)
    ensures !Clean(env) ==> r.Stopped? && |r.trace| <= 1 && forall e <- r.trace :: e.GitStatus?
    ensures !env.status.Porcelain? ==> r == Stopped(StatusUnknown(env.status.err), r.trace)
    ensures env.status.Porcelain? && |env.status.output| > 0 ==> r.stop == DirtyWorkingTree
    // the preparatory steps each stop the run when they fail
    ensures Clean(env) && env.defaultBranch.BranchError? ==>
              r == Stopped(NoDefaultBranch(env.defaultBranch.err), [GitStatus(true), GhRepoView(false)])
    ensures Clean(env) && env.defaultBranch.BranchName? && !env.fetch.Fetched? ==>
              r.Stopped? && r.stop == NotFetched(env.defaultBranch.name, env.fetch.err)
    ensures !Prepared(env) ==> r.Stopped? && forall e <- r.trace :: IsSetup(e)
    // past the preparation, every listed pull request gets an outcome unless one panics
    ensures r.Finished? <==> Prepared(env) && ProcessAll(env.list.prs, env.defaultBranch.name, env.replies).panic.None?
    ensures r.Crashed? <==> Prepared(env) && ProcessAll(env.list.prs, env.defaultBranch.name, env.replies).panic.Some?
    ensures r.Finished? ==>
              && |r.outcomes| == |env.list.prs|
              && forall k :: 0 <= k < |r.outcomes| ==>
                   r.outcomes[k] == ProcessOne(env.list.prs[k], env.defaultBranch.name, env.replies(k)).result.outcome
    ensures forall e <- r.trace :: e.GitRebaseOnto? ==> e.onto == "origin/" + env.defaultBranch.name
  {
    var status := StatusEvents(env.status);
    match IsCurrentBranchDirty(env.status)
    case Failure(err) =>
      SetupProtocol(status);
      Stopped(StatusUnknown(err), status)
    case Success(dirty) =>
      if dirty then
        SetupProtocol(status);
        Stopped(DirtyWorkingTree, status)
      else Preparing(env)
  }

  /** A non-empty list goes on to the processing loop, after `gh pr list`. */
  lemma ListingProcesses(setup: seq<Event>, list: ListReply, branch: string, replies: nat -> Replies)
    requires forall e <- setup :: IsSetup(e)
    requires list.Listed? && |list.prs| > 0
    ensures forall e <- setup + [GhPrList(true)] :: IsSetup(e)
    ensures Listing(setup, list, branch, replies) == Processing(setup + [GhPrList(true)], list.prs, branch, replies)
  {
  }

  /** A successful fetch goes on to listing, after `git fetch`. */
  lemma FetchingLists(branch: string, env: Env)
    requires env.fetch.Fetched?
    ensures forall e <- [GitStatus(true), GhRepoView(true), GitFetch(branch, true)] :: IsSetup(e)
    ensures Fetching(branch, env) == Listing([GitStatus(true), GhRepoView(true), GitFetch(branch, true)], env.list, branch, env.replies)
  {
    assert [GitStatus(true), GhRepoView(true)] + FetchEvents(branch, env.fetch)
        == [GitStatus(true), GhRepoView(true), GitFetch(branch, true)];
  }

  /** A clean tree with a resolved default branch goes on to fetching it. */
  lemma RunPrepares(env: Env)
    requires Clean(env) && env.defaultBranch.BranchName?
    ensures Run(env) == Fetching(env.defaultBranch.name, env)
  {
  }

  /**
    Once every preparatory step succeeded, the run's trace is the four
    preparatory commands followed by the processing loop's commands, and a
    crash is the loop's panic.
  */
  lemma RunAfterPreparation(env: Env)
    requires Prepared(env)
    ensures Run(env).trace
         == [GitStatus(true), GhRepoView(true), GitFetch(env.defaultBranch.name, true), GhPrList(true)]
            + ProcessAll(env.list.prs, env.defaultBranch.name, env.replies).events
    ensures Run(env).Crashed? ==> Run(env).panic == ProcessAll(env.list.prs, env.defaultBranch.name, env.replies).panic.value
  {
    var branch := env.defaultBranch.name;
    var setup := [GitStatus(true), GhRepoView(true), GitFetch(branch, true)];
    RunPrepares(env);
    FetchingLists(branch, env);
    ListingProcesses(setup, env.list, branch, env.replies);
    assert setup + [GhPrList(true)] == [GitStatus(true), GhRepoView(true), GitFetch(branch, true), GhPrList(true)];
  }

  /** Every outcome of a finished run is well formed and belongs to the listed pull request at the same position. */
  lemma FinishedOutcomesAligned(env: Env)
    requires Run(env).Finished?
    ensures |Run(env).outcomes| == |env.list.prs|
    ensures forall k :: 0 <= k < |env.list.prs| ==>
              Run(env).outcomes[k].pr == env.list.prs[k] && WellFormed(Run(env).outcomes[k])
  {
    var r := Run(env);
    forall k | 0 <= k < |env.list.prs|
      ensures r.outcomes[k].pr == env.list.prs[k] && WellFormed(r.outcomes[k])
    {
      var s := ProcessOne(env.list.prs[k], env.defaultBranch.name, env.replies(k));
      assert ProcessAll(env.list.prs, env.defaultBranch.name, env.replies).panic.None?;
      assert s.result.Done?;
    }
  }
}

=== FILE: scenarios.dfy ===
/** Worked examples: one pull request, or one run, with fixed tool replies. */
module Scenarios {
  import opened Wrappers
  import opened PullRequests
  import opened External
  import opened Rebase
  import opened DependOn
  import opened Pipeline
  import opened Cascade

  const Dependency := PullRequest("main", "feature-base", "", false, 123, "base", "u/123", MergedState, "abc1234def")
  const Dependent := PullRequest("main", "feature-top", Render([123]), false, 10, "top", "u/10", "OPEN", "")

  lemma DependencyOfDependent()
    ensures DependOns(Dependent.body) == [123]
  {
    RenderRoundTrip([123]);
  }

  lemma OriginMain()
    ensures "origin/" + "main" == "origin/main"
  {
  }

  /** A merged dependency: the dependent branch is checked out and rebased onto `origin/main`, replaying from the merge commit. */
  lemma ScenarioRebased()
    ensures var s := ProcessOne(Dependent, "main", Replies(Found(Dependency), CheckoutOk, RebaseOk, true));
            && s.result == Done(Processed(Dependent, [123], Some(Dependency), None))
            && s.events == [GhPrView(123, Found(Dependency)), GhPrCheckout(10, true),
                            GitRebaseOnto("origin/main", "abc1234def", "feature-top", true)]
  {
    var rep := Replies(Found(Dependency), CheckoutOk, RebaseOk, true);
    DependencyOfDependent();
    assert ProcessOne(Dependent, "main", rep) == Rebasing(Dependent, 123, Dependency, "main", rep);
    OriginMain();
    var r := RebaseOntoPullRequest("origin/main", "abc1234def", "feature-top", RebaseOk, true);
    assert r.events == [GitRebaseOnto("origin/main", "abc1234def", "feature-top", true)];
  }

  /** Without the colon after `on` nothing is declared, so nothing is looked up. */
  lemma ScenarioNoColon(rep: Replies)
    ensures var s := ProcessOne(Dependent.(body := "Depends on #123"), "main", rep);
            s.result.Done? && s.result.outcome.error == Some(NoDependOn) && s.events == []
  {
    var body := "Depends on #123";
    forall j | 0 <= j < |body| ensures body[j] != ':' {
    }
    ColonRequired(body);
  }

  /** Two declared dependencies: the pull request is left alone and both numbers are reported. */
  lemma ScenarioTwoDependencies(rep: Replies)
    ensures var s := ProcessOne(Dependent.(body := Render([1, 2])), "main", rep);
            s.result.Done? && s.result.outcome.error == Some(MultipleDependencies([1, 2])) && s.events == []
  {
    RenderRoundTrip([1, 2]);
  }

  /** An open dependency: looked up, but nothing is checked out. */
  lemma ScenarioNotMerged(rep: Replies)
    requires rep.lookup == Found(Dependency.(state := "OPEN"))
    ensures var s := ProcessOne(Dependent, "main", rep);
            s.result.Done? && s.result.outcome.error == Some(NotMerged(123)) && |s.events| == 1
  {
    RenderRoundTrip([123]);
  }

  const ConflictOutput := "error: " + ConflictMarker + " 5e6f7a8... change"

  const ConflictReplies := Replies(Found(Dependency), CheckoutOk, RebaseExit(ConflictOutput, "exit status 1"), false)

  /** A conflicting rebase is reported with the first seven characters of the merge commit. */
  lemma ScenarioConflict()
    ensures ProcessOne(Dependent, "main", ConflictReplies).result
            == Done(Processed(Dependent, [123], None,
                 Some(RebaseFailed(123, Conflicted("feature-top", "origin/main", "abc1234")))))
  {
    DependencyOfDependent();
    assert ProcessOne(Dependent, "main", ConflictReplies) == Rebasing(Dependent, 123, Dependency, "main", ConflictReplies);
    OriginMain();
    var r := RebaseOntoPullRequest("origin/main", "abc1234def", "feature-top", ConflictReplies.rebase, false);
    assert r.outcome == RebaseErrored(Conflicted("feature-top", "origin/main", "abc1234")) by {
      ContainsInMiddle("error: ", ConflictMarker, " 5e6f7a8... change");
      assert "abc1234def"[..ShortOidLength] == "abc1234";
    }
  }

  /** The conflicting rebase is followed by `git rebase --abort`, even though the abort fails here. */
  lemma ScenarioConflictAborted()
    ensures var t := ProcessOne(Dependent, "main", ConflictReplies).events;
            0 < |t| && t[|t| - 1] == GitRebaseAbort(false)
  {
    DependencyOfDependent();
    assert ProcessOne(Dependent, "main", ConflictReplies) == Rebasing(Dependent, 123, Dependency, "main", ConflictReplies);
  }

  /** The same conflict with a dependency that has no merge commit makes the program panic. */
  lemma ScenarioConflictWithoutMergeCommit()
    ensures var dep := Dependency.(mergeCommitOid := "");
            ProcessOne(Dependent, "main", Replies(Found(dep), CheckoutOk, RebaseExit(ConflictOutput, "exit status 1"), true)).result
            == Panicked(OldParentTooShort(""))
  {
    var dep := Dependency.(mergeCommitOid := "");
    var rep := Replies(Found(dep), CheckoutOk, RebaseExit(ConflictOutput, "exit status 1"), true);
    DependencyOfDependent();
    assert ProcessOne(Dependent, "main", rep) == Rebasing(Dependent, 123, dep, "main", rep);
    ContainsInMiddle("error: ", ConflictMarker, " 5e6f7a8... change");
    OriginMain();
  }

  /** A dirty working tree stops the run after `git status`. */
  lemma ScenarioDirty(env: Env)
    requires env.status == Porcelain(" M main.go\n")
    ensures Run(env) == Stopped(DirtyWorkingTree, [GitStatus(true)])
  {
  }
}

=== FILE: wrappers.dfy ===
/** Optional values and results, shared by the other modules. */
module Wrappers {

  /** A value that may be absent; stands in for Go's nil pointers and nil errors. */
  datatype Option<+T> = None | Some(value: T)

  /** A Go `(value, error)` pair in which exactly one side is meaningful. */
  datatype Result<+T, +E> = Success(value: T) | Failure(error: E)
}
